=== FILE: README.md ===
# Dumpsc texture extraction, modelled in Dafny

This project models the core of Dumpsc. Dumpsc extracts PNG images from Supercell `*_tex.sc` texture files and loads KTX 1.1 ASTC textures. Four things are modelled:

- **Container** (`container.dfy`): how `process_sc` prepares its input.
  - It skips the optional `SC` header: a big-endian version and a hash whose length is a big-endian prefix.
  - With decompression on, only unversioned data and versions 1 and 3 are decompressed. For any other version, the chunk loop gets the bytes after the header and hash, with no decompressor run. A header cut short inside the version field reads as a shorter big-endian number, so the bare `SC` is version 0 and leaves nothing to process. A hash length that reaches past the end also leaves nothing.
  - For data it decompresses, it picks a decompressor by magic, first match wins. `SCLZ` selects LZHAM with the dictionary exponent and the uncompressed size read from the stream. The Zstandard frame magic selects Zstandard. Anything else is LZMA, after four zero bytes are inserted at offset 9 to widen the size field.
- **Chunks** (`chunks.dfy`, `pixels.dfy`): the chunk loop.
  - It runs while more than 5 bytes remain.
  - Each chunk starts with a 10-byte header. Its `fileSize` field does not affect how far the cursor moves, or anything else in the run.
  - The sub-type is checked against the pixel-size table before any pixel is read.
  - Each pixel is decoded by `convert_pixel`: RGBA8888, RGBA4444, RGBA5551, RGB565, LA88 and L8.
  - Images are named with one more underscore each time.
- **De-tiling** (`detile.dfy`): the four nested loops that rewrite GPU-tiled chunks (types 27, 28, 29) from 32x32 tile order into row-major order.
- **KTX** (`ktx.dfy`): `load_ktx` up to the point where the ASTC decoder is called. It checks the identifier, takes the byte order from the endianness field, accepts only ASTC 4x4 (`0x93B0`), skips the key/value data, and finds the block data directly or behind Apple's LZFSE wrapper.

The model follows Python's semantics where they matter:

- Slices clamp to the sequence (`Bytes.Slice`, `Bytes.Drop`).
- `int.from_bytes` accepts a short slice.
- `struct.unpack` given a slice of the wrong size fails. The model returns an explicit error value in its place.

Exceptions become `Result` errors. The decompressors (LZHAM, Zstandard, LZMA, LZFSE) are parameters: functions that produce bytes or fail.

The main results:

- Pixel decoding is injective, with an explicit re-encoder as its inverse.
- The de-tiling scan visits every pixel of a w-by-h image exactly once. It agrees with an independent closed form for each point's position in the scan. De-tiling and re-tiling are inverse to each other.
- Headers and KTX files built by encoders parse back to their fields. A complete ASTC 4x4 KTX file is handled in one of three ways:
  - Without the Apple key in its key/value data, it loads to the bytes after the key/value data and the 4-byte image size field.
  - With the Apple key and `bvx` at offset 12 of the bytes after the key/value data, it loads to the LZFSE output of those bytes from offset 12, or fails with `LzfseFailed`.
  - With the Apple key and no `bvx` there, it fails with `UnsupportedCompression`, reporting the three bytes found.
- A stream of encoded chunks is processed into exactly its images, under distinct names, whether it is raw, inside a version-2 container, or inside a Zstandard-compressed container. A failing chunk after them keeps their images saved and ends the run with its error.

## Behaviour of this revision worth noting

The model follows the code of this revision:

- An unknown sub-type fails right after the header is read (dumpsc.py:104-111).
- RGBA5551 alpha is `(value & 0xFF) << 7`. It is modelled literally, so it can exceed 255 (`Pixels.Rgba5551AlphaExceedsByte`).
- KTX accepts only `0x93B0` and reorders no channels.
- A chunk-loop exception escapes `process_sc`, and the command line does not catch it. The model records the images saved before the failure and ends the run with `ChunkFailed`.

## Model

| member | source | states |
|---|---|---|
| `Bytes.BigEndianRoundTrip` | dumpsc.py:47-48 | a value below 256^n written as n big-endian bytes reads back as itself |
| `Bytes.BigEndianBytesOfReading` | dumpsc.py:47-48 | re-encoding a big-endian reading gives back the bytes read, so the reading loses nothing |
| `Bytes.LittleEndianRoundTrip` | dumpsc.py:55-56 | a value below 256^n written as n little-endian bytes reads back as itself |
| `Bytes.LittleEndianBytesOfReading` | dumpsc.py:55-56 | re-encoding a little-endian reading gives back the bytes read |
| `Bytes.LittleEndianZeroExtend` | dumpsc.py:77 | zero bytes appended at the high end leave a little-endian value unchanged |
| `Pixels.PixelSize` | dumpsc.py:104-111 | defined exactly for sub-types 0, 1, 2, 3, 4, 6, 10 with sizes in {1, 2, 4}; every other sub-type is an unknown-pixel-type error carrying that sub-type |
| `Pixels.ConvertPixel` | dumpsc.py:11-38 | succeeds iff the type is known and the slice has that type's size; an unknown type is reported as such; per type: RGBA8888 copies the four bytes, RGBA4444 gives four multiples of 16 up to 240, RGBA5551 three multiples of 8 up to 248 and alpha = low byte × 128, RGB565 a 3-tuple with G a multiple of 4 up to 252, LA88 is (b1, b1, b1, b0), L8 is (b, b, b) |
| `Pixels.Rgba4444` | dumpsc.py:15-19 | the four channels are 4-bit fields shifted left by 4 |
| `Pixels.Rgba5551` | dumpsc.py:20-24 | R, G, B are 5-bit fields shifted left by 3; alpha is the low byte times 128 |
| `Pixels.Rgb565` | dumpsc.py:25-28 | a 3-tuple; R and B are 5-bit fields shifted by 3, G a 6-bit field shifted by 2 |
| `Pixels.La88` | dumpsc.py:29-32 | luminance replicated into R, G, B; luminance × 256 + alpha recomposes the 16-bit value |
| `Pixels.ConvertPixelRoundTrip` | dumpsc.py:11-38 | every successfully decoded pixel re-encodes to exactly the bytes it came from |
| `Pixels.ConvertPixelInjective` | dumpsc.py:11-38 | two byte slices that decode to the same pixel under one sub-type are equal |
| `Pixels.Rgba5551AlphaExceedsByte` | dumpsc.py:20-24 | bytes 02 00 decode to RGBA (0, 0, 8, 256) and FF FF to alpha 32640: the alpha channel is not 8-bit |
| `Detile.ScanOrder` | dumpsc.py:130-152 | the loops visit w*h points: full 32-row bands, then the bottom strip |
| `Detile.ScanOrderBijection` | dumpsc.py:126-152 | the scan visits each point of the w-by-h image exactly once; position n holds an image point whose closed-form index is n, and each image point sits at its closed-form index |
| `Detile.ScanOrderDistinctPositions` | dumpsc.py:126-152 | no two loop iterations write the same pixel position |
| `Detile.ScatterWrites` | dumpsc.py:135-151 | when no two writes share a position, each written position ends up holding its own source pixel, whatever the writes after it |
| `Detile.DetilePixels` | dumpsc.py:126-152 | the de-tiled image has w·h pixels, and the pixel at each point (x, y) of the image is the source pixel at the closed-form scan index of (x, y) |
| `Detile.DetileAt` | dumpsc.py:126-152 | after de-tiling, the pixel at (x, y) is the source pixel at the closed-form index of (x, y) |
| `Detile.RetileDetile` | dumpsc.py:126-152 | reading the de-tiled image back in scan order recovers the flat pixel list |
| `Detile.DetileRetile` | dumpsc.py:126-152 | de-tiling the scan-order reading of any image gives that image back |
| `Container.StripHeader` | dumpsc.py:45-49 | without the `SC` magic the data is untouched and has no version; with it the version is a 32-bit value; the payload is always a suffix of the data, and is empty when the hash length reaches the end of the data |
| `Container.StripEncodedHeader` | dumpsc.py:45-49 | stripping a container built from version, hash and payload returns that version and payload |
| `Container.StripHeaderSplits` | dumpsc.py:45-49 | a complete container is exactly magic, version, hash length, hash and the stripped payload |
| `Container.StripShortHeader` | dumpsc.py:45-49 | `SC` followed by fewer than 4 bytes reads those bytes as a big-endian version and leaves an empty payload |
| `Container.SelectCodec` | dumpsc.py:52-77 | LZHAM iff `SCLZ`; Zstandard iff not `SCLZ` and the Zstandard magic; LZMA iff neither; Zstandard gets the whole payload; LZMA gets the payload with four zero bytes inserted after its first nine (`PatchLzmaHeader`) |
| `Container.SelectLzham` | dumpsc.py:52-59 | an `SCLZ` stream selects LZHAM with exactly its dictionary exponent, its little-endian size and its body |
| `Container.PatchLzmaHeader` | dumpsc.py:77 | the result is 4 bytes longer: the first min(9, len) bytes, four zeros, then the rest unchanged |
| `Container.PatchLzmaHeaderInvertible` | dumpsc.py:77 | removing the inserted zeros recovers the input |
| `Container.PatchLzmaHeaderWidensSize` | dumpsc.py:75-80 | the patch keeps the 5 property bytes and turns the 4-byte size into an 8-byte size of the same value |
| `Container.Prepare` | dumpsc.py:41-92 | without decompression the data is used as is; a version other than 1 or 3 yields the stripped payload; for unversioned data and versions 1 and 3 the result is exactly the selected decompressor's output on the stripped payload, so failure happens iff that decompressor fails |
| `Container.PrepareVersion2` | dumpsc.py:42-89 | a version-2 container yields its payload whatever the decompressors do |
| `Container.PrepareBareMagic` | dumpsc.py:42-51 | the 2-byte file `SC` reads as version 0, so no decompressor runs and the chunk loop gets nothing |
| `Container.PrepareLzma` | dumpsc.py:51-86 | a version-1 or version-3 container whose payload has neither magic hands the LZMA decompressor the payload with four zero bytes inserted after its first nine |
| `Container.PrepareLzham` | dumpsc.py:51-62 | a version-1 or version-3 container holding an `SCLZ` stream hands LZHAM the stream body, its little-endian size and its dictionary exponent |
| `Container.PrepareUnversionedLzma` | dumpsc.py:42-86 | data without the `SC` magic and without either codec magic goes whole, patched, to LZMA |
| `Container.PrepareZstd` | dumpsc.py:65-69 | a version-1 container holding a Zstandard frame hands the whole frame, magic included, to Zstandard |
| `Chunks.ParseChunkHeader` | dumpsc.py:96-102 | fails iff fewer than 10 bytes remain; otherwise the fields fit their widths and the sub-type is byte 5 read as signed |
| `Chunks.ParseEncodedHeader` | dumpsc.py:97-101 | an encoded header reads back as itself whatever follows |
| `Chunks.DecodePixels` | dumpsc.py:117-122 | succeeds iff count × pixelSize bytes are present, and otherwise fails with the `struct.unpack` length error; on success it yields exactly count pixels |
| `Chunks.DecodePixelsAt` | dumpsc.py:117-122 | pixel n of a successful run is `convert_pixel` of bytes [n·ps, n·ps+ps) |
| `Chunks.DecodePixelsPrefix` | dumpsc.py:119-122 | decoding reads only the bytes it needs; trailing bytes change nothing |
| `Chunks.LayOut` | dumpsc.py:124-152 | keeps the size; untiled types keep the row-major list; tiled types give an image whose scan-order reading is the decoded list |
| `Chunks.NextChunk` | dumpsc.py:96-111 | a short header is an error; an unknown sub-type fails with that sub-type before pixels are read; a successful step consumes at least the 10 header bytes |
| `Chunks.NextChunkStep` | dumpsc.py:96-152 | a step on a header with a known sub-type succeeds iff width·height·pixelSize payload bytes follow it; on success the cursor advances by exactly 10 + that many bytes, whatever fileSize says, and the image has the header's width and height |
| `Chunks.OutputName` | dumpsc.py:154 | the name is the prefix, k underscores and `.png` |
| `Chunks.OutputNamesDistinct` | dumpsc.py:154-155 | different picture counts give different names |
| `Chunks.ProcessChunks` | dumpsc.py:94-155 | at most 5 bytes means nothing is saved and the run completes; at most one image per 10 bytes; image n is named with k + n underscores |
| `Chunks.FileSizeIgnored` | dumpsc.py:98 | rewriting a chunk's fileSize field does not change the run |
| `Chunks.NextEncodedChunk` | dumpsc.py:96-152 | one iteration on an encoded chunk yields its header and image and leaves the cursor just after it |
| `Chunks.ProcessEncodedChunks` | dumpsc.py:94-155 | a stream of encoded chunks completes and saves exactly their images, in order, with successive names |
| `Chunks.ProcessChunksFailure` | dumpsc.py:94-155 | encoded chunks followed by a chunk that fails end the run with that chunk's error, and exactly the earlier chunks' images stay saved under successive names |
| `Dumpsc.ProcessSc` | dumpsc.py:41-155 | decompression failure iff a decompressor failed, and then nothing is saved; when a decompressor runs, failure happens iff the selected one fails on the stripped payload; image n is named path + baseName + n underscores + `.png`; all names differ |
| `Dumpsc.ProcessRawStream` | dumpsc.py:91-155 | without decompression, encoded chunks yield exactly their images |
| `Dumpsc.ProcessVersion2Container` | dumpsc.py:41-155 | a version-2 container of encoded chunks yields exactly their images with decompression on |
| `Dumpsc.ProcessZstdContainer` | dumpsc.py:41-155 | a Zstandard container that decompresses to encoded chunks yields exactly their images |
| `Ktx.ByteOrderOf` | ktx.py:12-16 | little-endian iff bytes 12..16 are 01 02 03 04 |
| `Ktx.ParseKtx` | ktx.py:8-41 | bad identifier iff the first 7 bytes differ; then a short header fails; then a non-ASTC-4x4 format fails with that format; a complete ASTC 4x4 file fails iff its key/value block holds the Apple key and the remainder lacks `bvx` at offset 12, and then reports the three bytes found; on success the fields are read at their offsets in the file's byte order, the key/value block is the clamped prefix after the header, the LZFSE path is taken iff the block holds the Apple key and then starts at remainder offset 12 with `bvx`, and otherwise the blocks are the remainder after 4 bytes |
| `Ktx.CheckBody` | ktx.py:25-41 | a wrong format is rejected first; for ASTC 4x4, failure happens iff the Apple key is present without `bvx` at remainder offset 12, and reports the tag found; the Apple key selects LZFSE, whose input starts with `bvx` at remainder offset 12; otherwise the image size field is skipped |
| `Ktx.LoadKtx` | ktx.py:8-43 | parse errors pass through; a parsed file loads unless LZFSE fails, which happens iff the Apple path was taken and the decompressor failed; the decoder gets the header's dimensions and either the blocks found or exactly the LZFSE output of the compressed data |
| `Ktx.LoadPlainKtx` | ktx.py:8-43 | any complete ASTC 4x4 file without the Apple key, whatever its other header fields, loads to its width, height and the bytes after the key/value data and the 4-byte image size |
| `Ktx.LoadCompressedKtx` | ktx.py:31-43 | any complete ASTC 4x4 file with the Apple key and `bvx` at remainder offset 12 loads to the LZFSE output of the remainder from offset 12, or fails with `LzfseFailed` |
| `Ktx.EncodeKtxHeader` | ktx.py:9-23 | a 64-byte header with the identifier, the endianness mark of the chosen order and the fields at the offsets the loader reads |
| `Ktx.ParseEncodedHeader` | ktx.py:9-29 | an encoded header followed by key/value data and a remainder parses back to its own fields, data and remainder |
| `Ktx.ParseEncodedKtx` | ktx.py:8-41 | a file without the Apple key parses back to its fields and blocks iff its format is ASTC 4x4, and otherwise fails with that format |
| `Ktx.ParseAppleKtx` | ktx.py:31-38 | with the Apple key, the LZFSE input is the remainder from offset 12 iff `bvx` is there, and otherwise the tag found is reported |
| `Ktx.LoadAppleKtx` | ktx.py:31-43 | an Apple-compressed file's image data is the LZFSE output of the remainder from offset 12, or an LZFSE failure |

## Left out

- The LZHAM, Zstandard, LZMA and LZFSE decompressors are external libraries. They are parameters that return bytes or fail. Their correctness is not modelled.
- PIL is not modelled: `Image.new`, `putdata`, `load`, PNG encoding and `save`. An image is its width, height and row-major pixel list. Saving is a `(name, image)` record. What PIL does with channels above 255 is not modelled.
- ASTC decoding (`Image.frombytes(..., 'astc', ...)`, ktx.py:43) is not modelled. `Ktx.LoadKtx` stops at the bytes and dimensions handed to the decoder.
- Console output (`print`) and the command line are not modelled. The command line covers argument parsing, choosing the output directory, filtering `tex.sc` names, and reading files (dumpsc.py:158-181).
- Exception types and messages are reduced to error constructors: `TypeError`, `ValueError`, `struct.error` and the generic `Exception`.
- Chunks.ProcessChunks: an exception that escapes `process_sc` is not propagated. It ends the run as `ChunkFailed`, and the images saved before it stay saved.
- Ktx.LoadKtx: the width, height and data length are not checked against each other, because that check belongs to the ASTC decoder.

=== FILE: arith.dfy ===
/** Facts about multiplication, division and remainder on naturals, stated once and used
    by the pixel decoders and the de-tiling proofs. */
module Arith {

  lemma MulMonotone(a: nat, b: nat, c: nat)
    requires a <= b
    ensures a * c <= b * c
  {
  }

  /** One more multiple of b. */
  lemma MulSucc(a: nat, b: nat)
    ensures (a + 1) * b == a * b + b
  {
  }

  /** Mixed-radix digits are unique: a*d + b determines a and b when b < d. */
  lemma MixedRadixUnique(a: nat, b: nat, a': nat, b': nat, d: nat)
    requires b < d && b' < d
    requires a * d + b == a' * d + b'
    ensures a == a' && b == b'
  {
    if a < a' {
      MulMonotone(a + 1, a', d);
      assert false;
    } else if a' < a {
      MulMonotone(a' + 1, a, d);
      assert false;
    }
  }

  /** Division by d recovers the digits of q*d + r. */
  lemma DivModOf(q: nat, d: nat, r: nat)
    requires r < d
    ensures (q * d + r) / d == q && (q * d + r) % d == r
  {
    var v := q * d + r;
    MixedRadixUnique(v / d, v % d, q, r, d);
  }

  /** Dividing by a and then by b is dividing by a*b. */
  lemma DivDiv(v: nat, a: nat, b: nat)
    requires a > 0 && b > 0
    ensures v / a / b == v / (a * b)
  {
    var q1, r0 := v / a, v % a;
    var q2, r1 := q1 / b, q1 % b;
    assert v == q1 * a + r0;
    assert q1 == q2 * b + r1;
    Regroup(q2, b, r1, a, r0);
    DigitBound(r1, b, a, r0);
    DivModOf(q2, a * b, r1 * a + r0);
  }

  lemma Regroup(q: nat, b: nat, r1: nat, a: nat, r0: nat)
    ensures (q * b + r1) * a + r0 == q * (a * b) + (r1 * a + r0)
  {
  }

  /** Digit r1 < b of weight a, plus a lower digit r0 < a, stays below a*b. */
  lemma DigitBound(r1: nat, b: nat, a: nat, r0: nat)
    requires r1 < b && r0 < a
    ensures r1 * a + r0 < a * b
  {
    MulMonotone(r1 + 1, b, a);
  }
}

=== FILE: bytes.dfy ===
/** Byte sequences as Python's `bytes` treats them: clamped slicing, prefix tests,
    substring search, and the integer readings of `int.from_bytes` and `struct.unpack`. */
module Bytes {
  import opened Arith

  /** An unsigned 8-bit value. */
  type byte = x: int | 0 <= x < 256

  /** 256 to the power n: one more than the largest n-byte unsigned value. */
  function Pow256(n: nat): (r: nat)
    ensures r >= 1
  {
    if n == 0 then 1 else 256 * Pow256(n - 1)
  }

  /** Python's `s[lo:hi]` for non-negative bounds: both bounds are clamped to the length,
      so a slice past the end is shorter or empty instead of an error. */
  function Slice(s: seq<byte>, lo: nat, hi: nat): (r: seq<byte>)
    ensures lo <= hi <= |s| ==> r == s[lo..hi]
    ensures lo <= |s| <= hi ==> r == s[lo..]
    ensures |s| <= lo || hi <= lo ==> r == []
  {
    if |s| <= lo || hi <= lo then []
    else if hi <= |s| then s[lo..hi]
    else s[lo..]
  }

  /** Python's `s[n:]`. */
  function Drop(s: seq<byte>, n: nat): (r: seq<byte>)
    ensures n <= |s| ==> r == s[n..] && |r| == |s| - n
    ensures |s| <= n ==> r == []
  {
    if |s| <= n then [] else s[n..]
  }

  /** Python's `s[:|prefix|] == prefix`. */
  predicate StartsWith(s: seq<byte>, prefix: seq<byte>) {
    |prefix| <= |s| && s[..|prefix|] == prefix
  }

  /** The needle occurs in the haystack starting at offset i. */
  predicate OccursAt(hay: seq<byte>, needle: seq<byte>, i: int) {
    0 <= i && i + |needle| <= |hay| && hay[i..i + |needle|] == needle
  }

  /** Python's `needle in hay` on byte strings: substring search. */
  predicate Contains(hay: seq<byte>, needle: seq<byte>) {
    exists i | 0 <= i <= |hay| - |needle| :: OccursAt(hay, needle, i)
  }

  /** `int.from_bytes(s, 'big')`, which accepts any length, the empty one included. */
  function BigEndian(s: seq<byte>): (r: nat)
    ensures r < Pow256(|s|)
  {
    if |s| == 0 then 0 else BigEndian(s[..|s| - 1]) * 256 + s[|s| - 1]
  }

  /** `int.from_bytes(s, 'little')`, and `struct.unpack('<H')` / `('<I')` on 2 or 4 bytes. */
  function LittleEndian(s: seq<byte>): (r: nat)
    ensures r < Pow256(|s|)
  {
    if |s| == 0 then 0 else s[0] + 256 * LittleEndian(s[1..])
  }

  /** The n-byte big-endian encoding of v. */
  function BigEndianBytes(v: nat, n: nat): (r: seq<byte>)
    requires v < Pow256(n)
    ensures |r| == n
  {
    if n == 0 then [] else BigEndianBytes(v / 256, n - 1) + [v % 256]
  }

  /** The n-byte little-endian encoding of v. */
  function LittleEndianBytes(v: nat, n: nat): (r: seq<byte>)
    requires v < Pow256(n)
    ensures |r| == n
  {
    if n == 0 then [] else [v % 256] + LittleEndianBytes(v / 256, n - 1)
  }

  /** `struct.unpack('<b')`: a byte read as a two's-complement signed value. */
  function Int8(b: byte): (r: int)
    ensures -128 <= r < 128
    ensures r % 256 == b
  {
    if b < 128 then b else b - 256
  }

  /** The byte that `Int8` reads as v. */
  function Int8Byte(v: int): (b: byte)
    requires -128 <= v < 128
    ensures Int8(b) == v
  {
    if v >= 0 then v else v + 256
  }

  /** Reading back a big-endian encoding gives the encoded value. */
  lemma {:induction false} BigEndianRoundTrip(v: nat, n: nat)
    requires v < Pow256(n)
    ensures BigEndian(BigEndianBytes(v, n)) == v
  {
    if n > 0 {
      var s := BigEndianBytes(v, n);
      assert s[..|s| - 1] == BigEndianBytes(v / 256, n - 1);
      BigEndianRoundTrip(v / 256, n - 1);
    }
  }

  /** Reading back a little-endian encoding gives the encoded value. */
  lemma {:induction false} LittleEndianRoundTrip(v: nat, n: nat)
    requires v < Pow256(n)
    ensures LittleEndian(LittleEndianBytes(v, n)) == v
  {
    if n > 0 {
      var s := LittleEndianBytes(v, n);
      assert s[1..] == LittleEndianBytes(v / 256, n - 1);
      LittleEndianRoundTrip(v / 256, n - 1);
    }
  }

  /** Encoding what was read gives back the bytes: a big-endian reading loses nothing. */
  lemma {:induction false} BigEndianBytesOfReading(s: seq<byte>)
    ensures BigEndianBytes(BigEndian(s), |s|) == s
  {
    if |s| > 0 {
      var init := s[..|s| - 1];
      BigEndianBytesOfReading(init);
      DivModOf(BigEndian(init), 256, s[|s| - 1]);
      assert s == init + [s[|s| - 1]];
    }
  }

  /** Encoding what was read gives back the bytes: a little-endian reading loses nothing. */
  lemma {:induction false} LittleEndianBytesOfReading(s: seq<byte>)
    ensures LittleEndianBytes(LittleEndian(s), |s|) == s
  {
    if |s| > 0 {
      LittleEndianBytesOfReading(s[1..]);
      DivModOf(LittleEndian(s[1..]), 256, s[0]);
      assert s == [s[0]] + s[1..];
    }
  }

  /** Zero bytes appended at the high end do not change a little-endian value. */
  lemma {:induction false} LittleEndianZeroExtend(s: seq<byte>, zeros: seq<byte>)
    requires forall i | 0 <= i < |zeros| :: zeros[i] == 0
    ensures LittleEndian(s + zeros) == LittleEndian(s)
  {
    if |s| == 0 {
      LittleEndianOfZeros(zeros);
      assert s + zeros == zeros;
    } else {
      assert (s + zeros)[1..] == s[1..] + zeros;
      LittleEndianZeroExtend(s[1..], zeros);
    }
  }

  /** A run of zero bytes reads as zero. */
  lemma {:induction false} LittleEndianOfZeros(zeros: seq<byte>)
    requires forall i | 0 <= i < |zeros| :: zeros[i] == 0
    ensures LittleEndian(zeros) == 0
  {
    if |zeros| > 0 {
      LittleEndianOfZeros(zeros[1..]);
    }
  }
}

=== FILE: chunks.dfy ===
/** The chunk loop of `process_sc` (dumpsc.py:94-155): a cursor walks the decompressed
    stream while more than 5 bytes remain; each chunk is a 10-byte header followed by
    width*height encoded pixels, and becomes one saved image. The cursor is modelled by
    handing the rest of the stream to the next step. */
module Chunks {
  import opened Arith
  import opened Bytes
  import opened Results
  import opened Pixels
  import opened Detile

  /** The 10-byte chunk header. `fileSize` is read but never used. */
  datatype ChunkHeader = ChunkHeader(fileType: int, fileSize: nat, subType: int, width: nat, height: nat)

  datatype ChunkError =
    | TruncatedHeader             // `struct.unpack` on a short width or height field
    | PixelFailure(error: PixelError)

  /** The ranges the header's fixed-width fields can hold. */
  predicate ValidHeader(h: ChunkHeader) {
    && -128 <= h.fileType < 128
    && h.fileSize < Pow256(4)
    && -128 <= h.subType < 128
    && h.width < 0x10000
    && h.height < 0x10000
  }

  /** Reads signed fileType (byte 0), little-endian u32 fileSize (1..5), signed subType
      (byte 5), little-endian u16 width (6..8) and height (8..10). The loop only reads a
      header when more than 5 bytes remain, so the first two fields are always there;
      with fewer than 10 bytes the width or height read fails. */
  function ParseChunkHeader(stream: seq<byte>): (r: Result<ChunkHeader, ChunkError>)
    ensures r.Err? <==> |stream| < 10
    ensures r.Err? ==> r.error == TruncatedHeader
    ensures r.Ok? ==> ValidHeader(r.value) && r.value.subType == Int8(stream[5])
  {
    if |stream| < 10 then Err(TruncatedHeader)
    else
      Ok(ChunkHeader(Int8(stream[0]), LittleEndian(stream[1..5]), Int8(stream[5]),
                     LittleEndian(stream[6..8]), LittleEndian(stream[8..10])))
  }

  /** The 10 bytes `ParseChunkHeader` reads a header from. */
  function EncodeChunkHeader(h: ChunkHeader): (r: seq<byte>)
    requires ValidHeader(h)
    ensures |r| == 10
  {
    [Int8Byte(h.fileType)] + LittleEndianBytes(h.fileSize, 4) + [Int8Byte(h.subType)]
      + LittleEndianBytes(h.width, 2) + LittleEndianBytes(h.height, 2)
  }

  /** A header encoded and read back is the same header, whatever follows it. */
  lemma ParseEncodedHeader(h: ChunkHeader, tail: seq<byte>)
    requires ValidHeader(h)
    ensures ParseChunkHeader(EncodeChunkHeader(h) + tail) == Ok(h)
  {
    var s := EncodeChunkHeader(h) + tail;
    assert s[1..5] == LittleEndianBytes(h.fileSize, 4);
    assert s[6..8] == LittleEndianBytes(h.width, 2);
    assert s[8..10] == LittleEndianBytes(h.height, 2);
    LittleEndianRoundTrip(h.fileSize, 4);
    LittleEndianRoundTrip(h.width, 2);
    LittleEndianRoundTrip(h.height, 2);
  }

  /** The byte size of a chunk's pixel data. */
  function PayloadSize(h: ChunkHeader): nat
    requires KnownSubType(h.subType)
  {
    h.width * h.height * PixelSize(h.subType).value
  }

  /** Decodes `count` pixels of sub-type t one after another, each from the next pixelSize
      bytes. A pixel cut short by the end of the stream is a length error. */
  function DecodePixels(s: seq<byte>, count: nat, t: int): (r: Result<seq<Pixel>, PixelError>)
    requires KnownSubType(t)
    ensures var ps := PixelSize(t).value;
      && (r.Ok? <==> count * ps <= |s|)
      && (r.Err? ==> r.error == BadPixelLength)
      && (r.Ok? ==> |r.value| == count)
    decreases count
  {
    if count == 0 then Ok([])
    else
      var ps := PixelSize(t).value;
      MulSucc(count - 1, ps);
      var p :- ConvertPixel(Slice(s, 0, ps), t);
      var rest :- DecodePixels(Drop(s, ps), count - 1, t);
      Ok([p] + rest)
  }

  /** Pixel n of a decoded run is `convert_pixel` of bytes [n*ps, n*ps + ps) of s. */
  lemma {:induction false} DecodePixelsAt(s: seq<byte>, count: nat, t: int)
    requires KnownSubType(t) && DecodePixels(s, count, t).Ok?
    ensures var ps, r := PixelSize(t).value, DecodePixels(s, count, t).value;
      forall n | 0 <= n < count :: ConvertPixel(s[n * ps..n * ps + ps], t) == Ok(r[n])
    decreases count
  {
    if count > 0 {
      var ps := PixelSize(t).value;
      var r := DecodePixels(s, count, t).value;
      DecodePixelsAt(s[ps..], count - 1, t);
      DecodeStep(s, count, t, r[0], r[1..]);
    }
  }

  /** The inductive step of `DecodePixels`: pixel n + 1 of s is pixel n of s after its
      first pixel. */
  lemma DecodeStep(s: seq<byte>, count: nat, t: int, p: Pixel, rest: seq<Pixel>)
    requires KnownSubType(t) && count > 0
    requires var ps := PixelSize(t).value;
      && ps <= |s| && ConvertPixel(s[..ps], t) == Ok(p)
      && (count - 1) * ps <= |s| - ps && |rest| == count - 1
      && forall n | 0 <= n < count - 1 :: ConvertPixel(s[ps..][n * ps..n * ps + ps], t) == Ok(rest[n])
    ensures var ps := PixelSize(t).value;
      && count * ps <= |s|
      && forall n | 0 <= n < count :: ConvertPixel(s[n * ps..n * ps + ps], t) == Ok(([p] + rest)[n])
  {
    var ps := PixelSize(t).value;
    MulSucc(count - 1, ps);
    forall n | 0 <= n < count
      ensures ConvertPixel(s[n * ps..n * ps + ps], t) == Ok(([p] + rest)[n])
    {
      if n > 0 {
        var m := n - 1;
        MulSucc(m, ps);
        assert ConvertPixel(s[ps..][m * ps..m * ps + ps], t) == Ok(rest[m]);
        assert s[ps..][m * ps..m * ps + ps] == s[n * ps..n * ps + ps];
      }
    }
  }

  /** Pixel decoding reads only the bytes it needs: what follows them does not matter. */
  lemma {:induction false} DecodePixelsPrefix(s: seq<byte>, tail: seq<byte>, count: nat, t: int)
    requires KnownSubType(t) && count * PixelSize(t).value <= |s|
    ensures DecodePixels(s + tail, count, t) == DecodePixels(s, count, t)
    decreases count
  {
    if count > 0 {
      var ps := PixelSize(t).value;
      MulSucc(count - 1, ps);
      assert ps <= |s| && (count - 1) * ps <= |s| - ps;
      assert Slice(s + tail, 0, ps) == Slice(s, 0, ps);
      assert Drop(s + tail, ps) == Drop(s, ps) + tail;
      DecodePixelsPrefix(Drop(s, ps), tail, count - 1, t);
    }
  }

  /** A decoded chunk: the image PIL is given (width, height and its row-major pixel
      list). */
  datatype Image = Image(width: nat, height: nat, pixels: seq<Pixel>)

  /** The image of a chunk whose pixels decoded to `pixels`: as read for ordinary chunks,
      rearranged by the de-tiling loops for the tiled types 27, 28 and 29. */
  function LayOut(h: ChunkHeader, pixels: seq<Pixel>): (img: Image)
    requires |pixels| == h.width * h.height
    ensures img.width == h.width && img.height == h.height && |img.pixels| == |pixels|
    ensures !IsTiled(h.fileType) ==> img.pixels == pixels
    ensures IsTiled(h.fileType) ==> RetilePixels(h.width, h.height, img.pixels) == pixels
  {
    if IsTiled(h.fileType) then
      RetileDetile(h.width, h.height, pixels);
      Image(h.width, h.height, DetilePixels(h.width, h.height, pixels))
    else
      Image(h.width, h.height, pixels)
  }

  /** One step of the loop: the chunk's header, its image, and the stream after it. */
  datatype Step = Step(header: ChunkHeader, image: Image, rest: seq<byte>)

  /** One iteration of the chunk loop on the stream at the cursor. The sub-type is checked
      before any pixel is read; the cursor then moves past the 10 header bytes and the
      payload (`NextChunkStep` states how far). */
  function NextChunk(stream: seq<byte>): (r: Result<Step, ChunkError>)
    ensures |stream| < 10 ==> r == Err(TruncatedHeader)
    ensures |stream| >= 10 && !KnownSubType(Int8(stream[5])) ==>
      r == Err(PixelFailure(UnknownPixelType(Int8(stream[5]))))
    ensures r.Ok? ==> 10 + |r.value.rest| <= |stream|
  {
    var header :- ParseChunkHeader(stream);
    match PixelSize(header.subType)
    case Err(e) => Err(PixelFailure(e))
    case Ok(ps) =>
      var count := header.width * header.height;
      match DecodePixels(stream[10..], count, header.subType)
      case Err(e) => Err(PixelFailure(e))
      case Ok(pixels) =>
        Ok(Step(header, LayOut(header, pixels), stream[10 + PayloadSize(header)..]))
  }

  /** A step succeeds exactly when the whole payload is present, and then moves the cursor
      by 10 + width*height*pixelSize bytes, never by fileSize, and yields an image of the
      header's size. */
  lemma NextChunkStep(stream: seq<byte>)
    ensures var r := NextChunk(stream);
      r.Ok? ==>
        && r.value.header == ParseChunkHeader(stream).value
        && KnownSubType(r.value.header.subType)
        && |stream| == 10 + PayloadSize(r.value.header) + |r.value.rest|
        && r.value.rest == stream[10 + PayloadSize(r.value.header)..]
        && r.value.image.width == r.value.header.width
        && r.value.image.height == r.value.header.height
        && |r.value.image.pixels| == r.value.header.width * r.value.header.height
    ensures |stream| >= 10 && KnownSubType(Int8(stream[5])) ==>
      (NextChunk(stream).Ok? <==> PayloadSize(ParseChunkHeader(stream).value) <= |stream| - 10)
  {
  }

  /** What became of a file: all its chunks were saved, or processing stopped. */
  datatype Outcome =
    | Completed
    | DecompressionFailed           // `process_sc` prints "Cannot decompress" and returns
    | ChunkFailed(error: ChunkError)  // an exception escapes `process_sc`

  /** An image written to disk under a name. */
  datatype Saved = Saved(name: string, image: Image)

  /** The images saved, in order, and how processing ended. */
  datatype Run = Run(saved: seq<Saved>, outcome: Outcome)

  /** A run of k underscores. */
  function Underscores(k: nat): (r: string)
    ensures |r| == k && forall i | 0 <= i < k :: r[i] == '_'
  {
    seq(k, _ => '_')
  }

  /** The name of picture k: the prefix (output directory and base name), k underscores,
      then the `.png` extension. */
  function OutputName(prefix: string, k: nat): (r: string)
    ensures |r| == |prefix| + k + 4
    ensures r[..|prefix|] == prefix && r[|prefix| + k..] == ".png"
    ensures forall i | |prefix| <= i < |prefix| + k :: r[i] == '_'
  {
    prefix + Underscores(k) + ".png"
  }

  /** Image k and image k' get different names whenever k and k' differ. */
  lemma OutputNamesDistinct(prefix: string, k: nat, k': nat)
    requires k != k'
    ensures OutputName(prefix, k) != OutputName(prefix, k')
  {
    assert |OutputName(prefix, k)| != |OutputName(prefix, k')|;
  }

  /** The loop from a cursor on: `stream` is what remains, `k` is `picCount`. Each chunk's
      image is saved before the next chunk is read, so a failing chunk leaves the earlier
      images saved. */
  function ProcessChunks(stream: seq<byte>, prefix: string, k: nat): (r: Run)
    ensures |stream| <= 5 ==> r == Run([], Completed)
    ensures r.outcome != DecompressionFailed
    ensures 10 * |r.saved| <= |stream|
    ensures forall n | 0 <= n < |r.saved| :: r.saved[n].name == OutputName(prefix, k + n)
    decreases |stream|
  {
    if |stream| <= 5 then Run([], Completed)
    else
      match NextChunk(stream)
      case Err(e) => Run([], ChunkFailed(e))
      case Ok(step) =>
        var tail := ProcessChunks(step.rest, prefix, k + 1);
        NamesShift(prefix, k, step.image, tail.saved);
        Run([Saved(OutputName(prefix, k), step.image)] + tail.saved, tail.outcome)
  }

  /** Saving one image in front of images named from k + 1 on gives images named from
      k on. */
  lemma NamesShift(prefix: string, k: nat, image: Image, tail: seq<Saved>)
    requires forall m | 0 <= m < |tail| :: tail[m].name == OutputName(prefix, k + 1 + m)
    ensures var saved := [Saved(OutputName(prefix, k), image)] + tail;
      forall n | 0 <= n < |saved| :: saved[n].name == OutputName(prefix, k + n)
  {
    var saved := [Saved(OutputName(prefix, k), image)] + tail;
    forall n | 0 <= n < |saved|
      ensures saved[n].name == OutputName(prefix, k + n)
    {
      if n > 0 {
        assert saved[n] == tail[n - 1];
        assert k + 1 + (n - 1) == k + n;
      }
    }
  }

  /** fileSize (bytes 1..5 of a header) is never used: rewriting it changes nothing. */
  lemma FileSizeIgnored(stream: seq<byte>, fileSize: seq<byte>, prefix: string, k: nat)
    requires |stream| >= 10 && |fileSize| == 4
    ensures ProcessChunks(stream[..1] + fileSize + stream[5..], prefix, k) == ProcessChunks(stream, prefix, k)
  {
    var other := stream[..1] + fileSize + stream[5..];
    assert other[10..] == stream[10..];
    assert other[5] == stream[5] && other[0] == stream[0];
    assert other[6..8] == stream[6..8] && other[8..10] == stream[8..10];
    var h, h' := ParseChunkHeader(stream).value, ParseChunkHeader(other).value;
    assert h'.subType == h.subType && h'.width == h.width && h'.height == h.height && h'.fileType == h.fileType;
    if KnownSubType(h.subType) && PayloadSize(h) <= |stream| - 10 {
      assert NextChunk(other).value.image == NextChunk(stream).value.image;
      assert NextChunk(other).value.rest == NextChunk(stream).value.rest;
    }
  }

  /** A chunk as it is stored: header and encoded pixel data of the right size. */
  datatype RawChunk = RawChunk(header: ChunkHeader, payload: seq<byte>)

  predicate WellFormed(c: RawChunk) {
    && ValidHeader(c.header)
    && KnownSubType(c.header.subType)
    && |c.payload| == PayloadSize(c.header)
  }

  function EncodeChunk(c: RawChunk): (r: seq<byte>)
    requires WellFormed(c)
    ensures |r| == 10 + |c.payload|
  {
    EncodeChunkHeader(c.header) + c.payload
  }

  /** The stream the chunk loop reads the given chunks from. */
  function EncodeChunks(cs: seq<RawChunk>): (r: seq<byte>)
    requires forall i | 0 <= i < |cs| :: WellFormed(cs[i])
  {
    if |cs| == 0 then [] else EncodeChunk(cs[0]) + EncodeChunks(cs[1..])
  }

  /** The image a well-formed chunk decodes to. */
  function ChunkImage(c: RawChunk): (img: Image)
    requires WellFormed(c)
    ensures img.width == c.header.width && img.height == c.header.height
  {
    var h := c.header;
    var pixels := DecodePixels(c.payload, h.width * h.height, h.subType).value;
    LayOut(h, pixels)
  }

  /** One loop iteration on an encoded chunk yields that chunk's header and image and
      moves the cursor exactly past it. */
  lemma NextEncodedChunk(c: RawChunk, tail: seq<byte>)
    requires WellFormed(c)
    ensures NextChunk(EncodeChunk(c) + tail) == Ok(Step(c.header, ChunkImage(c), tail))
  {
    var h := c.header;
    var stream := EncodeChunk(c) + tail;
    assert stream == EncodeChunkHeader(h) + (c.payload + tail);
    ParseEncodedHeader(h, c.payload + tail);
    assert stream[10..] == c.payload + tail;
    DecodePixelsPrefix(c.payload, tail, h.width * h.height, h.subType);
    assert stream[10 + PayloadSize(h)..] == tail;
  }

  /** Saving chunk 0's image in front of the images of chunks 1.. named from k + 1 on
      gives the images of all chunks named from k on. */
  lemma SavedShift(prefix: string, k: nat, cs: seq<RawChunk>, tail: seq<Saved>)
    requires forall i | 0 <= i < |cs| :: WellFormed(cs[i])
    requires |cs| > 0 && |tail| == |cs| - 1
    requires forall m | 0 <= m < |tail| :: tail[m] == Saved(OutputName(prefix, k + 1 + m), ChunkImage(cs[m + 1]))
    ensures var saved := [Saved(OutputName(prefix, k), ChunkImage(cs[0]))] + tail;
      forall n | 0 <= n < |cs| :: saved[n] == Saved(OutputName(prefix, k + n), ChunkImage(cs[n]))
  {
    var saved := [Saved(OutputName(prefix, k), ChunkImage(cs[0]))] + tail;
    forall n | 0 <= n < |cs|
      ensures saved[n] == Saved(OutputName(prefix, k + n), ChunkImage(cs[n]))
    {
      if n > 0 {
        assert saved[n] == tail[n - 1];
        assert k + 1 + (n - 1) == k + n;
      }
    }
  }

  /** Walking a stream of encoded chunks saves exactly their images, in order, named
      with 0, 1, 2, ... underscores after `k` of them, and completes. */
  lemma {:induction false} ProcessEncodedChunks(cs: seq<RawChunk>, prefix: string, k: nat)
    requires forall i | 0 <= i < |cs| :: WellFormed(cs[i])
    ensures var r := ProcessChunks(EncodeChunks(cs), prefix, k);
      && r.outcome == Completed
      && |r.saved| == |cs|
      && forall n | 0 <= n < |cs| :: r.saved[n] == Saved(OutputName(prefix, k + n), ChunkImage(cs[n]))
  {
    if |cs| > 0 {
      var rest := EncodeChunks(cs[1..]);
      NextEncodedChunk(cs[0], rest);
      ProcessEncodedChunks(cs[1..], prefix, k + 1);
      var tail := ProcessChunks(rest, prefix, k + 1);
      var r := ProcessChunks(EncodeChunks(cs), prefix, k);
      assert r.saved == [Saved(OutputName(prefix, k), ChunkImage(cs[0]))] + tail.saved;
      SavedShift(prefix, k, cs, tail.saved);
    }
  }

  /** A chunk that fails after well-formed chunks ends the run with its error, and the
      images of the chunks before it stay saved under their names. */
  lemma {:induction false} ProcessChunksFailure(cs: seq<RawChunk>, bad: seq<byte>, prefix: string, k: nat)
    requires forall i | 0 <= i < |cs| :: WellFormed(cs[i])
    requires |bad| > 5 && NextChunk(bad).Err?
    ensures var r := ProcessChunks(EncodeChunks(cs) + bad, prefix, k);
      && r.outcome == ChunkFailed(NextChunk(bad).error)
      && |r.saved| == |cs|
      && forall n | 0 <= n < |cs| :: r.saved[n] == Saved(OutputName(prefix, k + n), ChunkImage(cs[n]))
  {
    if |cs| > 0 {
      var rest := EncodeChunks(cs[1..]) + bad;
      assert EncodeChunks(cs) + bad == EncodeChunk(cs[0]) + rest;
      NextEncodedChunk(cs[0], rest);
      ProcessChunksFailure(cs[1..], bad, prefix, k + 1);
      var tail := ProcessChunks(rest, prefix, k + 1);
      var r := ProcessChunks(EncodeChunks(cs) + bad, prefix, k);
      assert r.saved == [Saved(OutputName(prefix, k), ChunkImage(cs[0]))] + tail.saved;
      SavedShift(prefix, k, cs, tail.saved);
    } else {
      assert EncodeChunks(cs) + bad == bad;
    }
  }
}

=== FILE: container.dfy ===
/** The outer `SC` container and the choice of decompressor (`process_sc`, dumpsc.py:42-92).
    The decompressors themselves are parameters: functions that either produce bytes or fail. */
module Container {
  import opened Bytes
  import opened Results

  /** "SC": the container magic. */
  const ScMagic: seq<byte> := [0x53, 0x43]

  /** "SCLZ": the LZHAM stream magic. */
  const SclzMagic: seq<byte> := [0x53, 0x43, 0x4C, 0x5A]

  /** The Zstandard frame magic number 0xFD2FB528, little-endian (section 3.1.1 of RFC 8878). */
  const ZstdMagic: seq<byte> := [0x28, 0xB5, 0x2F, 0xFD]

  /** The container after its optional header is skipped: the version, if there was a
      header, and the bytes that follow the hash. */
  datatype Stripped = Stripped(version: Option<nat>, payload: seq<byte>)

  /** Skips the `SC` header: big-endian version at bytes 2..6, big-endian hash length at
      bytes 6..10, then the hash itself. As in Python, short fields read as shorter
      integers and a skip past the end leaves nothing. */
  function StripHeader(data: seq<byte>): (r: Stripped)
    ensures !StartsWith(data, ScMagic) ==> r == Stripped(None, data)
    ensures StartsWith(data, ScMagic) ==> r.version.Some? && r.version.value < Pow256(4)
    ensures |r.payload| <= |data| && r.payload == data[|data| - |r.payload|..]
    // a hash that reaches the end of the data leaves nothing to process
    ensures StartsWith(data, ScMagic) && 10 + BigEndian(Slice(data, 6, 10)) >= |data| ==> r.payload == []
  {
    if StartsWith(data, ScMagic) then
      var version := BigEndian(Slice(data, 2, 6));
      var hashLength := BigEndian(Slice(data, 6, 10));
      Stripped(Some(version), Drop(data, 10 + hashLength))
    else
      Stripped(None, data)
  }

  /** A container with the given version, hash and payload, laid out as `StripHeader` reads it. */
  function EncodeHeader(version: nat, hash: seq<byte>, payload: seq<byte>): (r: seq<byte>)
    requires version < Pow256(4) && |hash| < Pow256(4)
    ensures |r| == 10 + |hash| + |payload|
  {
    ScMagic + BigEndianBytes(version, 4) + BigEndianBytes(|hash|, 4) + hash + payload
  }

  /** Stripping the header of an encoded container gives back its version and payload. */
  lemma StripEncodedHeader(version: nat, hash: seq<byte>, payload: seq<byte>)
    requires version < Pow256(4) && |hash| < Pow256(4)
    ensures StripHeader(EncodeHeader(version, hash, payload)) == Stripped(Some(version), payload)
  {
    var data := EncodeHeader(version, hash, payload);
    assert data[..2] == ScMagic;
    assert Slice(data, 2, 6) == BigEndianBytes(version, 4);
    assert Slice(data, 6, 10) == BigEndianBytes(|hash|, 4);
    BigEndianRoundTrip(version, 4);
    BigEndianRoundTrip(|hash|, 4);
    assert Drop(data, 10 + |hash|) == payload;
  }

  /** Conversely, a container with a complete header is exactly its header, its hash and
      the payload `StripHeader` returns: nothing but the hash is lost. */
  lemma StripHeaderSplits(data: seq<byte>)
    requires StartsWith(data, ScMagic) && |data| >= 10
    requires 10 + BigEndian(data[6..10]) <= |data|
    ensures var r := StripHeader(data);
      data == EncodeHeader(r.version.value, data[10..10 + BigEndian(data[6..10])], r.payload)
  {
    var hashLength := BigEndian(data[6..10]);
    BigEndianBytesOfReading(data[2..6]);
    BigEndianBytesOfReading(data[6..10]);
    assert data == data[..2] + data[2..6] + data[6..10] + data[10..10 + hashLength] + data[10 + hashLength..];
  }

  /** A header cut short inside the version field: the version is what its bytes read as,
      big-endian, and nothing is left to process. */
  lemma StripShortHeader(v: seq<byte>)
    requires |v| < 4
    ensures StripHeader(ScMagic + v) == Stripped(Some(BigEndian(v)), [])
  {
    var data := ScMagic + v;
    assert data[..2] == ScMagic;
    assert Slice(data, 2, 6) == v;
    assert Slice(data, 6, 10) == [];
  }

  /** Only unversioned data and versions 1 and 3 are decompressed; version 2 ships its
      payload uncompressed. */
  predicate NeedsDecompression(version: Option<nat>) {
    version == None || version == Some(1) || version == Some(3)
  }

  /** The decompressor chosen for a payload, with the input prepared for it. */
  datatype Codec =
    | Lzham(dictSizeLog2: nat, uncompressedSize: nat, input: seq<byte>)
    | Zstd(input: seq<byte>)
    | Lzma(input: seq<byte>)

  /** First match wins: the `SCLZ` magic, then the Zstandard magic, and LZMA otherwise. */
  function SelectCodec(data: seq<byte>): (c: Codec)
    ensures c.Lzham? <==> StartsWith(data, SclzMagic)
    ensures c.Zstd? <==> !StartsWith(data, SclzMagic) && StartsWith(data, ZstdMagic)
    ensures c.Lzma? <==> !StartsWith(data, SclzMagic) && !StartsWith(data, ZstdMagic)
    ensures c.Zstd? ==> c.input == data
    ensures c.Lzma? ==> c.input == PatchLzmaHeader(data)
  {
    if StartsWith(data, SclzMagic) then
      Lzham(BigEndian(Slice(data, 4, 5)), LittleEndian(Slice(data, 5, 9)), Drop(data, 9))
    else if StartsWith(data, ZstdMagic) then
      Zstd(data)
    else
      Lzma(PatchLzmaHeader(data))
  }

  /** The LZHAM parameters read back: an `SCLZ` stream with dictionary-size exponent d,
      little-endian uncompressed size n and body b selects LZHAM with exactly d, n and b. */
  lemma SelectLzham(d: byte, n: nat, body: seq<byte>)
    requires n < Pow256(4)
    ensures SelectCodec(SclzMagic + [d] + LittleEndianBytes(n, 4) + body) == Lzham(d, n, body)
  {
    var data := SclzMagic + [d] + LittleEndianBytes(n, 4) + body;
    assert data[..4] == SclzMagic;
    assert Slice(data, 4, 5) == [d];
    assert Slice(data, 5, 9) == LittleEndianBytes(n, 4);
    LittleEndianRoundTrip(n, 4);
    assert Drop(data, 9) == body;
  }

  /** Inserts four zero bytes after the first nine bytes, or at the end of shorter data. */
  function PatchLzmaHeader(data: seq<byte>): (r: seq<byte>)
    ensures |r| == |data| + 4
    ensures var k := if |data| < 9 then |data| else 9;
      && r[..k] == data[..k]
      && r[k..k + 4] == [0, 0, 0, 0]
      && r[k + 4..] == data[k..]
  {
    Slice(data, 0, 9) + [0, 0, 0, 0] + Drop(data, 9)
  }

  /** Removing the inserted bytes again recovers the payload: the patch loses nothing. */
  lemma PatchLzmaHeaderInvertible(data: seq<byte>)
    ensures var r := PatchLzmaHeader(data);
      var k := if |data| < 9 then |data| else 9;
      r[..k] + r[k + 4..] == data
  {
    var k := if |data| < 9 then |data| else 9;
    assert data == data[..k] + data[k..];
  }

  /** The patch turns the stored 4-byte little-endian size at bytes 5..9 into the 8-byte
      size field of an `.lzma` (LZMA-alone) header at bytes 5..13, with the same value,
      and keeps the properties byte and dictionary size at bytes 0..5. */
  lemma PatchLzmaHeaderWidensSize(data: seq<byte>)
    requires |data| >= 9
    ensures var r := PatchLzmaHeader(data);
      && r[..5] == data[..5]
      && LittleEndian(r[5..13]) == LittleEndian(data[5..9])
  {
    var r := PatchLzmaHeader(data);
    assert r[5..13] == data[5..9] + [0, 0, 0, 0];
    LittleEndianZeroExtend(data[5..9], [0, 0, 0, 0]);
  }

  /** The external decompressors: each produces bytes or fails. `lzham` takes the input,
      the uncompressed size and the dictionary-size exponent. */
  datatype Codecs = Codecs(
    lzham: (seq<byte>, nat, nat) -> Option<seq<byte>>,
    zstd: seq<byte> -> Option<seq<byte>>,
    lzma: seq<byte> -> Option<seq<byte>>)

  function RunCodec(codecs: Codecs, c: Codec): Option<seq<byte>> {
    match c
    case Lzham(d, n, input) => codecs.lzham(input, n, d)
    case Zstd(input) => codecs.zstd(input)
    case Lzma(input) => codecs.lzma(input)
  }

  /** The stream the chunk loop walks, or None when the chosen decompressor failed
      (`process_sc` prints an error and returns). With decompression off, or for a container
      version other than 1 or 3, no decompressor runs. */
  function Prepare(data: seq<byte>, decompress: bool, codecs: Codecs): (r: Option<seq<byte>>)
    ensures !decompress ==> r == Some(data)
    ensures decompress && !NeedsDecompression(StripHeader(data).version) ==> r == Some(StripHeader(data).payload)
    ensures r.None? ==> decompress && NeedsDecompression(StripHeader(data).version)
    // otherwise the result is exactly what the chosen decompressor makes of the payload
    ensures decompress && NeedsDecompression(StripHeader(data).version) ==>
      r == RunCodec(codecs, SelectCodec(StripHeader(data).payload))
  {
    if !decompress then Some(data)
    else
      var stripped := StripHeader(data);
      if NeedsDecompression(stripped.version) then RunCodec(codecs, SelectCodec(stripped.payload))
      else Some(stripped.payload)
  }

  /** A version-2 container is passed through: the chunk loop sees exactly its payload,
      whatever the decompressors would do. */
  lemma PrepareVersion2(hash: seq<byte>, payload: seq<byte>, codecs: Codecs)
    requires |hash| < Pow256(4)
    ensures Prepare(EncodeHeader(2, hash, payload), true, codecs) == Some(payload)
  {
    StripEncodedHeader(2, hash, payload);
  }

  /** The bare magic `SC` reads as version 0: no decompressor runs and the chunk loop gets
      nothing. */
  lemma PrepareBareMagic(codecs: Codecs)
    ensures Prepare(ScMagic, true, codecs) == Some([])
  {
    StripShortHeader([]);
    assert ScMagic + [] == ScMagic;
  }

  /** A version-1 or version-3 container whose payload has neither magic goes to the LZMA
      decompressor, with four zero bytes inserted after the first nine. */
  lemma PrepareLzma(version: nat, hash: seq<byte>, payload: seq<byte>, codecs: Codecs)
    requires version == 1 || version == 3
    requires |hash| < Pow256(4)
    requires !StartsWith(payload, SclzMagic) && !StartsWith(payload, ZstdMagic)
    ensures Prepare(EncodeHeader(version, hash, payload), true, codecs) == codecs.lzma(PatchLzmaHeader(payload))
  {
    StripEncodedHeader(version, hash, payload);
  }

  /** A version-1 or version-3 container holding an `SCLZ` stream goes to the LZHAM
      decompressor with the stream's body, its uncompressed size and its dictionary-size
      exponent. */
  lemma PrepareLzham(version: nat, hash: seq<byte>, d: byte, n: nat, body: seq<byte>, codecs: Codecs)
    requires version == 1 || version == 3
    requires |hash| < Pow256(4) && n < Pow256(4)
    ensures var payload := SclzMagic + [d] + LittleEndianBytes(n, 4) + body;
      Prepare(EncodeHeader(version, hash, payload), true, codecs) == codecs.lzham(body, n, d)
  {
    var payload := SclzMagic + [d] + LittleEndianBytes(n, 4) + body;
    StripEncodedHeader(version, hash, payload);
    SelectLzham(d, n, body);
  }

  /** Data without the `SC` magic is decompressed whole: the first nine bytes of a raw
      LZMA stream are kept and the size field is widened. */
  lemma PrepareUnversionedLzma(data: seq<byte>, codecs: Codecs)
    requires !StartsWith(data, ScMagic) && !StartsWith(data, SclzMagic) && !StartsWith(data, ZstdMagic)
    ensures Prepare(data, true, codecs) == codecs.lzma(PatchLzmaHeader(data))
  {
  }

  /** A version-1 container whose payload is a Zstandard frame goes to the Zstandard
      decompressor with the whole payload, magic included, even when later bytes look
      like another magic. */
  lemma PrepareZstd(hash: seq<byte>, frame: seq<byte>, codecs: Codecs)
    requires |hash| < Pow256(4)
    ensures Prepare(EncodeHeader(1, hash, ZstdMagic + frame), true, codecs) == codecs.zstd(ZstdMagic + frame)
  {
    StripEncodedHeader(1, hash, ZstdMagic + frame);
    assert (ZstdMagic + frame)[..4] == ZstdMagic;
  }
}

=== FILE: detile.dfy ===
/** De-tiling of the GPU-tiled chunk types 27, 28 and 29 (dumpsc.py). The flat pixel list
    of such a chunk is stored in 32x32 tile-scan order; the four nested loops of
    `process_sc` write each pixel back at its true (x, y). `ScanOrder` is the sequence of
    points those loops visit, built the way the loops are nested; `Index` is an independent
    closed form for the position of a point in that sequence. The two are proved to be
    inverse bijections between [0, w*h) and the w-by-h image. */
module Detile {
  import opened Arith

  /** A pixel coordinate, column x and row y, as PIL's `imgl[x, y]` takes it. */
  datatype Point = Point(x: nat, y: nat)

  predicate InImage(w: nat, h: nat, p: Point) {
    p.x < w && p.y < h
  }

  /** The chunk types whose pixels are stored tile by tile. */
  predicate IsTiled(fileType: int) {
    fileType == 27 || fileType == 28 || fileType == 29
  }

  /** Position of p in the row-major pixel list of an image of width w (PIL's `putdata` order). */
  function RowMajor(w: nat, p: Point): nat {
    p.y * w + p.x
  }

  // ---------------------------------------------------------------------------------
  // The scan order, nested the way the loops of `process_sc` are nested
  // ---------------------------------------------------------------------------------

  /** `for j in range(th): for h in range(tw): visit (x0 + h, y0 + j)`: a tw-by-th
      rectangle in row-major order. */
  function RectScan(x0: nat, y0: nat, tw: nat, th: nat): (r: seq<Point>)
    ensures |r| == tw * th
  {
    if th == 0 then []
    else RectScan(x0, y0, tw, th - 1) + seq(tw, hh requires 0 <= hh => Point(x0 + hh, y0 + th - 1))
  }

  /** The first k full 32-wide tiles of the band starting at row 32*l, each bh rows tall,
      left to right (`for k in range(width // 32)`). */
  function TileRun(l: nat, bh: nat, k: nat): (r: seq<Point>)
    ensures |r| == k * (32 * bh)
  {
    if k == 0 then [] else TileRun(l, bh, k - 1) + RectScan(32 * (k - 1), 32 * l, 32, bh)
  }

  /** One band of bh rows starting at row 32*l: its full tiles, then its right-edge strip
      of width `width % 32`. */
  function Band(w: nat, l: nat, bh: nat): (r: seq<Point>)
    ensures |r| == bh * w
  {
    TileRun(l, bh, w / 32) + RectScan(32 * (w / 32), 32 * l, w % 32, bh)
  }

  /** The first n full bands of 32 rows (`for l in range(height // 32)`). */
  function FullBands(w: nat, n: nat): (r: seq<Point>)
    ensures |r| == n * (32 * w)
  {
    if n == 0 then [] else FullBands(w, n - 1) + Band(w, n - 1, 32)
  }

  /** Every point the de-tiling loops write, in the order they consume the flat pixel list:
      the full bands, then the bottom strip of `height % 32` rows (its full tiles, then the
      bottom-right corner). */
  function ScanOrder(w: nat, h: nat): (r: seq<Point>)
    ensures |r| == w * h
  {
    SplitRows(w, h);
    FullBands(w, h / 32) + Band(w, h / 32, h % 32)
  }

  /** The full bands and the bottom strip together hold w*h pixels. */
  lemma SplitRows(w: nat, h: nat)
    ensures (h / 32) * (32 * w) + (h % 32) * w == w * h
  {
    var H, rh := h / 32, h % 32;
    assert H * (32 * w) == (32 * H) * w;
    assert (32 * H) * w + rh * w == (32 * H + rh) * w;
  }

  // ---------------------------------------------------------------------------------
  // The closed form
  // ---------------------------------------------------------------------------------

  /** Height of band l: 32, or `height % 32` for the bottom strip. */
  function BandHeight(h: nat, l: nat): nat {
    if l < h / 32 then 32 else h % 32
  }

  /** Width of the tile in column k: 32, or `width % 32` for the right edge. */
  function TileWidth(w: nat, k: nat): nat {
    if k < w / 32 then 32 else w % 32
  }

  /** Row-major position of p inside its own tile. */
  function TileCell(w: nat, p: Point): nat {
    (p.y % 32) * TileWidth(w, p.x / 32) + p.x % 32
  }

  /** Offset of p within its band: the full tiles to its left, then its position inside
      its own tile. */
  function BandOffset(w: nat, h: nat, p: Point): nat {
    (p.x / 32) * (32 * BandHeight(h, p.y / 32)) + TileCell(w, p)
  }

  /** The number of pixels the de-tiling loops consume before they write point p. */
  function Index(w: nat, h: nat, p: Point): nat {
    (p.y / 32) * (32 * w) + BandOffset(w, h, p)
  }

  /** Every element of s is in the image and sits at position base + i of the scan. */
  ghost predicate Places(w: nat, h: nat, s: seq<Point>, base: nat) {
    forall i | 0 <= i < |s| :: InImage(w, h, s[i]) && Index(w, h, s[i]) == base + i
  }

  // ---------------------------------------------------------------------------------
  // Row-major positions
  // ---------------------------------------------------------------------------------

  /** A row-major position fits in the image. */
  lemma RowMajorBelow(w: nat, h: nat, p: Point)
    requires InImage(w, h, p)
    ensures RowMajor(w, p) < w * h
  {
    MulMonotone(p.y + 1, h, w);
  }

  /** Row-major positions of in-image points are distinct. */
  lemma RowMajorInjective(w: nat, p: Point, q: Point)
    requires p.x < w && q.x < w
    requires RowMajor(w, p) == RowMajor(w, q)
    ensures p == q
  {
    MixedRadixUnique(p.y, p.x, q.y, q.x, w);
  }

  // ---------------------------------------------------------------------------------
  // The scan order visits each point where the closed form says
  // ---------------------------------------------------------------------------------

  /** Element m of a rectangle scan is at local column m % tw and row m / tw, written here
      without division: m == row * tw + column. */
  lemma {:induction false} RectScanAt(x0: nat, y0: nat, tw: nat, th: nat, m: nat)
    requires m < tw * th
    ensures var p := RectScan(x0, y0, tw, th)[m];
      && x0 <= p.x < x0 + tw && y0 <= p.y < y0 + th
      && m == (p.y - y0) * tw + (p.x - x0)
  {
    var prev := RectScan(x0, y0, tw, th - 1);
    if m < |prev| {
      RectScanAt(x0, y0, tw, th - 1, m);
    } else {
      assert m - |prev| < tw;
    }
  }

  lemma PlacesConcat(w: nat, h: nat, a: seq<Point>, b: seq<Point>, base: nat)
    requires Places(w, h, a, base) && Places(w, h, b, base + |a|)
    ensures Places(w, h, a + b, base)
  {
    forall i | 0 <= i < |a + b|
      ensures InImage(w, h, (a + b)[i]) && Index(w, h, (a + b)[i]) == base + i
    {
      if i >= |a| {
        assert (a + b)[i] == b[i - |a|];
      }
    }
  }

  /** Band l (of height BandHeight(h, l)) lies inside the image. */
  lemma BandFits(h: nat, l: nat)
    requires l <= h / 32
    ensures 32 * l + BandHeight(h, l) <= h
    ensures BandHeight(h, l) <= 32
  {
  }

  /** The point at local (hh, j) of the tile in column k of band l is consumed where
      the closed form says. */
  lemma TilePointIndex(w: nat, h: nat, l: nat, k: nat, j: nat, hh: nat)
    requires l <= h / 32 && k <= w / 32
    requires j < BandHeight(h, l) && hh < TileWidth(w, k)
    ensures InImage(w, h, Point(32 * k + hh, 32 * l + j))
    ensures Index(w, h, Point(32 * k + hh, 32 * l + j))
         == l * (32 * w) + k * (32 * BandHeight(h, l)) + j * TileWidth(w, k) + hh
  {
    var p := Point(32 * k + hh, 32 * l + j);
    BandFits(h, l);
    assert p.x / 32 == k && p.x % 32 == hh;
    assert p.y / 32 == l && p.y % 32 == j;
  }

  /** The tile in column k of band l, scanned row-major, fills the scan positions right
      after the tiles to its left. */
  lemma TilePlaces(w: nat, h: nat, l: nat, k: nat)
    requires l <= h / 32 && k <= w / 32
    ensures var bh, tw := BandHeight(h, l), TileWidth(w, k);
      Places(w, h, RectScan(32 * k, 32 * l, tw, bh), l * (32 * w) + k * (32 * bh))
  {
    var bh, tw := BandHeight(h, l), TileWidth(w, k);
    var s := RectScan(32 * k, 32 * l, tw, bh);
    forall m | 0 <= m < |s|
      ensures InImage(w, h, s[m]) && Index(w, h, s[m]) == l * (32 * w) + k * (32 * bh) + m
    {
      RectScanAt(32 * k, 32 * l, tw, bh, m);
      var j, hh := s[m].y - 32 * l, s[m].x - 32 * k;
      assert s[m] == Point(32 * k + hh, 32 * l + j);
      TilePointIndex(w, h, l, k, j, hh);
    }
  }

  lemma {:induction false} TileRunPlaces(w: nat, h: nat, l: nat, k: nat)
    requires l <= h / 32 && k <= w / 32
    ensures Places(w, h, TileRun(l, BandHeight(h, l), k), l * (32 * w))
  {
    if k > 0 {
      var bh := BandHeight(h, l);
      TileRunPlaces(w, h, l, k - 1);
      TilePlaces(w, h, l, k - 1);
      assert TileWidth(w, k - 1) == 32;
      PlacesConcat(w, h, TileRun(l, bh, k - 1), RectScan(32 * (k - 1), 32 * l, 32, bh), l * (32 * w));
    }
  }

  lemma BandPlaces(w: nat, h: nat, l: nat)
    requires l <= h / 32
    ensures Places(w, h, Band(w, l, BandHeight(h, l)), l * (32 * w))
  {
    var bh := BandHeight(h, l);
    TileRunPlaces(w, h, l, w / 32);
    TilePlaces(w, h, l, w / 32);
    assert TileWidth(w, w / 32) == w % 32;
    PlacesConcat(w, h, TileRun(l, bh, w / 32), RectScan(32 * (w / 32), 32 * l, w % 32, bh), l * (32 * w));
  }

  lemma {:induction false} FullBandsPlaces(w: nat, h: nat, n: nat)
    requires n <= h / 32
    ensures Places(w, h, FullBands(w, n), 0)
  {
    if n > 0 {
      FullBandsPlaces(w, h, n - 1);
      BandPlaces(w, h, n - 1);
      assert BandHeight(h, n - 1) == 32;
      PlacesConcat(w, h, FullBands(w, n - 1), Band(w, n - 1, 32), 0);
    }
  }

  /** Every element of the scan order is an image point consumed at its own position. */
  lemma ScanOrderPlaces(w: nat, h: nat)
    ensures Places(w, h, ScanOrder(w, h), 0)
  {
    FullBandsPlaces(w, h, h / 32);
    BandPlaces(w, h, h / 32);
    assert BandHeight(h, h / 32) == h % 32;
    PlacesConcat(w, h, FullBands(w, h / 32), Band(w, h / 32, h % 32), 0);
  }

  // ---------------------------------------------------------------------------------
  // The closed form is injective and stays below w*h
  // ---------------------------------------------------------------------------------

  /** Row j, column hh of a tile of width tw and height bh comes before its end. */
  lemma TileCellBound(j: nat, hh: nat, tw: nat, bh: nat)
    requires j < bh && hh < tw
    ensures j * tw + hh < bh * tw
  {
    MulMonotone(j + 1, bh, tw);
  }

  /** Cell m of full tile k (of nk full tiles, each c = 32*bh cells) lies inside a band
      of width w >= 32*nk. */
  lemma FullTileBound(k: nat, nk: nat, bh: nat, m: nat, w: nat)
    requires k < nk && m < 32 * bh && 32 * nk <= w
    ensures k * (32 * bh) + m < bh * w
  {
    MulMonotone(k + 1, nk, 32 * bh);
    assert nk * (32 * bh) == (32 * nk) * bh;
    MulMonotone(32 * nk, w, bh);
  }

  /** Cell m of the right-edge tile, of width w - 32*nk, lies inside the band. */
  lemma EdgeTileBound(nk: nat, bh: nat, m: nat, w: nat, tw: nat)
    requires w == 32 * nk + tw && m < bh * tw
    ensures nk * (32 * bh) + m < bh * w
  {
    assert bh * w == nk * (32 * bh) + bh * tw;
  }

  /** The offset of a point inside its band is below the band's size. */
  lemma BandOffsetBound(w: nat, h: nat, p: Point)
    requires InImage(w, h, p)
    ensures var bh := BandHeight(h, p.y / 32);
      && p.y % 32 < bh
      && TileCell(w, p) < 32 * bh
      && BandOffset(w, h, p) < bh * w
  {
    var l, j, k, hh := p.y / 32, p.y % 32, p.x / 32, p.x % 32;
    var bh, tw := BandHeight(h, l), TileWidth(w, k);
    assert j < bh;
    assert hh < tw && tw <= 32;
    var m := j * tw + hh;
    TileCellBound(j, hh, tw, bh);
    MulMonotone(tw, 32, bh);
    assert TileCell(w, p) == m;
    if k < w / 32 {
      FullTileBound(k, w / 32, bh, m, w);
    } else {
      EdgeTileBound(k, bh, m, w, tw);
    }
  }

  /** Offset `off` inside band l, of height bh, lies inside an image of height h. */
  lemma BandBelow(l: nat, bh: nat, off: nat, w: nat, h: nat)
    requires off < bh * w && 32 * l + bh <= h
    ensures l * (32 * w) + off < w * h
  {
    assert l * (32 * w) + bh * w == (32 * l + bh) * w;
    MulMonotone(32 * l + bh, h, w);
  }

  /** The closed form maps every image point below w*h. */
  lemma IndexBelow(w: nat, h: nat, p: Point)
    requires InImage(w, h, p)
    ensures Index(w, h, p) < w * h
  {
    var l := p.y / 32;
    BandOffsetBound(w, h, p);
    BandFits(h, l);
    BandBelow(l, BandHeight(h, l), BandOffset(w, h, p), w, h);
  }

  /** Equal closed forms put two points in the same band, at the same band offset. */
  lemma SameBand(w: nat, h: nat, p: Point, q: Point)
    requires InImage(w, h, p) && InImage(w, h, q)
    requires Index(w, h, p) == Index(w, h, q)
    ensures p.y / 32 == q.y / 32 && BandOffset(w, h, p) == BandOffset(w, h, q)
  {
    BandOffsetBound(w, h, p);
    BandOffsetBound(w, h, q);
    MulMonotone(BandHeight(h, p.y / 32), 32, w);
    MulMonotone(BandHeight(h, q.y / 32), 32, w);
    MixedRadixUnique(p.y / 32, BandOffset(w, h, p), q.y / 32, BandOffset(w, h, q), 32 * w);
  }

  /** Equal band offsets in one band put two points in the same tile, at the same
      position inside it. */
  lemma SameTile(w: nat, h: nat, p: Point, q: Point)
    requires InImage(w, h, p) && InImage(w, h, q)
    requires p.y / 32 == q.y / 32 && BandOffset(w, h, p) == BandOffset(w, h, q)
    ensures p.x / 32 == q.x / 32
    ensures TileCell(w, p) == TileCell(w, q)
  {
    BandOffsetBound(w, h, p);
    BandOffsetBound(w, h, q);
    var bh := BandHeight(h, p.y / 32);
    assert BandHeight(h, q.y / 32) == bh;
    MixedRadixUnique(p.x / 32, TileCell(w, p), q.x / 32, TileCell(w, q), 32 * bh);
  }

  /** Distinct image points have distinct positions in the scan. */
  lemma IndexInjective(w: nat, h: nat, p: Point, q: Point)
    requires InImage(w, h, p) && InImage(w, h, q)
    requires Index(w, h, p) == Index(w, h, q)
    ensures p == q
  {
    SameBand(w, h, p, q);
    SameTile(w, h, p, q);
    var tw := TileWidth(w, p.x / 32);
    assert p.x % 32 < tw && q.x % 32 < tw;
    MixedRadixUnique(p.y % 32, p.x % 32, q.y % 32, q.x % 32, tw);
    assert p.x == 32 * (p.x / 32) + p.x % 32 && q.x == 32 * (q.x / 32) + q.x % 32;
    assert p.y == 32 * (p.y / 32) + p.y % 32 && q.y == 32 * (q.y / 32) + q.y % 32;
  }

  // ---------------------------------------------------------------------------------
  // The bijection
  // ---------------------------------------------------------------------------------

  /** The de-tiling loops visit every point of the w-by-h image exactly once, and consume
      exactly w*h source pixels: position n of the scan holds an image point whose closed
      form is n, and every image point is found at the position its closed form names. */
  lemma ScanOrderBijection(w: nat, h: nat)
    ensures |ScanOrder(w, h)| == w * h
    ensures forall n | 0 <= n < w * h ::
      InImage(w, h, ScanOrder(w, h)[n]) && Index(w, h, ScanOrder(w, h)[n]) == n
    ensures forall p | InImage(w, h, p) :: Index(w, h, p) < w * h && ScanOrder(w, h)[Index(w, h, p)] == p
    ensures forall a, b | 0 <= a < b < w * h :: ScanOrder(w, h)[a] != ScanOrder(w, h)[b]
  {
    var s := ScanOrder(w, h);
    ScanOrderPlaces(w, h);
    forall p | InImage(w, h, p)
      ensures Index(w, h, p) < w * h && s[Index(w, h, p)] == p
    {
      IndexBelow(w, h, p);
      IndexInjective(w, h, p, s[Index(w, h, p)]);
    }
  }

  // ---------------------------------------------------------------------------------
  // Writing the pixels back
  // ---------------------------------------------------------------------------------

  /** `imgl[x, y] = pixels[iSrcPix]` for every scanned point in turn, applied to the image
      that `putdata` filled. The last write is outermost. */
  function Scatter<T>(img: seq<T>, w: nat, scan: seq<Point>, src: seq<T>): (r: seq<T>)
    requires |scan| == |src|
    requires forall i | 0 <= i < |scan| :: RowMajor(w, scan[i]) < |img|
    ensures |r| == |img|
  {
    if |scan| == 0 then img
    else
      var n := |scan| - 1;
      Scatter(img, w, scan[..n], src[..n])[RowMajor(w, scan[n]) := src[n]]
  }

  /** When no two scanned points share a position, each one ends up holding its own
      source pixel. */
  lemma {:induction false} ScatterWrites<T>(img: seq<T>, w: nat, scan: seq<Point>, src: seq<T>, i: nat)
    requires |scan| == |src|
    requires forall a | 0 <= a < |scan| :: RowMajor(w, scan[a]) < |img|
    requires forall a, b | 0 <= a < b < |scan| :: RowMajor(w, scan[a]) != RowMajor(w, scan[b])
    requires i < |scan|
    ensures Scatter(img, w, scan, src)[RowMajor(w, scan[i])] == src[i]
  {
    var n := |scan| - 1;
    if i < n {
      ScatterWrites(img, w, scan[..n], src[..n], i);
    }
  }

  /** The image the de-tiling loops leave behind, as a row-major pixel list: the pixel at
      each point (x, y) of the image is the source pixel at the closed-form scan index of
      (x, y). */
  function DetilePixels<T>(w: nat, h: nat, pixels: seq<T>): (r: seq<T>)
    requires |pixels| == w * h
    ensures |r| == w * h
    ensures forall p | InImage(w, h, p) ::
      RowMajor(w, p) < w * h && Index(w, h, p) < w * h && r[RowMajor(w, p)] == pixels[Index(w, h, p)]
  {
    ScanOrderFits(w, h);
    ScatterScanOrder(w, h, pixels);
    Scatter(pixels, w, ScanOrder(w, h), pixels)
  }

  /** Scattering the pixels along the scan order puts the source pixel at each point's
      closed-form index at that point. */
  lemma ScatterScanOrder<T>(w: nat, h: nat, pixels: seq<T>)
    requires |pixels| == w * h
    ensures forall i | 0 <= i < |ScanOrder(w, h)| :: RowMajor(w, ScanOrder(w, h)[i]) < w * h
    ensures forall p | InImage(w, h, p) ::
      RowMajor(w, p) < w * h && Index(w, h, p) < w * h &&
      Scatter(pixels, w, ScanOrder(w, h), pixels)[RowMajor(w, p)] == pixels[Index(w, h, p)]
  {
    var s := ScanOrder(w, h);
    ScanOrderBijection(w, h);
    ScanOrderFits(w, h);
    ScanOrderDistinctPositions(w, h);
    forall p | InImage(w, h, p)
      ensures RowMajor(w, p) < w * h && Index(w, h, p) < w * h
      ensures Scatter(pixels, w, s, pixels)[RowMajor(w, p)] == pixels[Index(w, h, p)]
    {
      RowMajorBelow(w, h, p);
      var n := Index(w, h, p);
      assert s[n] == p;
      ScatterWrites(pixels, w, s, pixels, n);
    }
  }

  lemma ScanOrderFits(w: nat, h: nat)
    ensures forall i | 0 <= i < |ScanOrder(w, h)| :: RowMajor(w, ScanOrder(w, h)[i]) < w * h
  {
    ScanOrderBijection(w, h);
    forall i | 0 <= i < |ScanOrder(w, h)|
      ensures RowMajor(w, ScanOrder(w, h)[i]) < w * h
    {
      RowMajorBelow(w, h, ScanOrder(w, h)[i]);
    }
  }

  /** Re-reading an image in tile-scan order: the inverse of de-tiling. */
  function RetilePixels<T>(w: nat, h: nat, img: seq<T>): (r: seq<T>)
    requires |img| == w * h
    ensures |r| == w * h
  {
    ScanOrderFits(w, h);
    seq(w * h, n requires 0 <= n < w * h => img[RowMajor(w, ScanOrder(w, h)[n])])
  }

  /** No two positions of the scan order write the same pixel. */
  lemma ScanOrderDistinctPositions(w: nat, h: nat)
    ensures forall a, b | 0 <= a < b < |ScanOrder(w, h)| ::
      RowMajor(w, ScanOrder(w, h)[a]) != RowMajor(w, ScanOrder(w, h)[b])
  {
    var s := ScanOrder(w, h);
    ScanOrderBijection(w, h);
    forall a, b | 0 <= a < b < |s|
      ensures RowMajor(w, s[a]) != RowMajor(w, s[b])
    {
      if RowMajor(w, s[a]) == RowMajor(w, s[b]) {
        RowMajorInjective(w, s[a], s[b]);
      }
    }
  }

  /** After de-tiling, the pixel at (x, y) is the source pixel the closed form assigns to
      (x, y). */
  lemma DetileAt<T>(w: nat, h: nat, pixels: seq<T>, p: Point)
    requires |pixels| == w * h
    requires InImage(w, h, p)
    ensures RowMajor(w, p) < w * h && Index(w, h, p) < w * h
    ensures DetilePixels(w, h, pixels)[RowMajor(w, p)] == pixels[Index(w, h, p)]
  {
    var r := DetilePixels(w, h, pixels);
    assert RowMajor(w, p) < w * h && r[RowMajor(w, p)] == pixels[Index(w, h, p)];
  }

  /** Re-scanning the de-tiled image in tile order recovers the flat pixel list. */
  lemma RetileDetile<T>(w: nat, h: nat, pixels: seq<T>)
    requires |pixels| == w * h
    ensures RetilePixels(w, h, DetilePixels(w, h, pixels)) == pixels
  {
    var s := ScanOrder(w, h);
    var img := DetilePixels(w, h, pixels);
    ScanOrderBijection(w, h);
    forall n | 0 <= n < w * h
      ensures RetilePixels(w, h, img)[n] == pixels[n]
    {
      DetileAt(w, h, pixels, s[n]);
    }
  }

  /** Every row-major position below w*h is the position of an image point. */
  lemma PointOfPosition(w: nat, h: nat, q: nat) returns (p: Point)
    requires q < w * h
    ensures InImage(w, h, p) && RowMajor(w, p) == q
  {
    assert w > 0;
    p := Point(q % w, q / w);
    if p.y >= h {
      MulMonotone(h, p.y, w);
    }
  }

  /** De-tiling the tile-order reading of an image gives the image back. */
  lemma DetileRetile<T>(w: nat, h: nat, img: seq<T>)
    requires |img| == w * h
    ensures DetilePixels(w, h, RetilePixels(w, h, img)) == img
  {
    var s := ScanOrder(w, h);
    var flat := RetilePixels(w, h, img);
    var back := DetilePixels(w, h, flat);
    ScanOrderBijection(w, h);
    forall q | 0 <= q < w * h
      ensures back[q] == img[q]
    {
      var p := PointOfPosition(w, h, q);
      DetileAt(w, h, flat, p);
    }
  }
}

=== FILE: dumpsc.dfy ===
/** `process_sc` end to end (dumpsc.py:41-155): the container is stripped and decompressed,
    then the chunk loop saves one image per chunk. */
module Dumpsc {
  import opened Bytes
  import opened Results
  import opened Container
  import opened Chunks

  /** The images `process_sc(baseName, data, path, decompress)` saves, and how it ends.
      A failing decompressor saves nothing; otherwise image k is saved under
      `path + baseName` followed by k underscores and `.png`. */
  function ProcessSc(baseName: string, data: seq<byte>, path: string, decompress: bool, codecs: Codecs): (r: Run)
    ensures r.outcome == DecompressionFailed <==> Prepare(data, decompress, codecs).None?
    ensures r.outcome == DecompressionFailed ==> r.saved == []
    ensures decompress && NeedsDecompression(StripHeader(data).version) ==>
      (r.outcome == DecompressionFailed <==> RunCodec(codecs, SelectCodec(StripHeader(data).payload)).None?)
    ensures forall n | 0 <= n < |r.saved| :: r.saved[n].name == OutputName(path + baseName, n)
    ensures forall a, b | 0 <= a < b < |r.saved| :: r.saved[a].name != r.saved[b].name
  {
    match Prepare(data, decompress, codecs)
    case None => Run([], DecompressionFailed)
    case Some(stream) => ProcessChunks(stream, path + baseName, 0)
  }

  /** Without decompression, a stream of encoded chunks yields exactly their images, in
      order, and the run completes. */
  lemma ProcessRawStream(baseName: string, cs: seq<RawChunk>, path: string, codecs: Codecs)
    requires forall i | 0 <= i < |cs| :: WellFormed(cs[i])
    ensures var r := ProcessSc(baseName, EncodeChunks(cs), path, false, codecs);
      && r.outcome == Completed
      && |r.saved| == |cs|
      && forall n | 0 <= n < |cs| :: r.saved[n] == Saved(OutputName(path + baseName, n), ChunkImage(cs[n]))
  {
    ProcessEncodedChunks(cs, path + baseName, 0);
  }

  /** With decompression on, a version-2 container holding encoded chunks behaves the same:
      version 2 bypasses every decompressor. */
  lemma ProcessVersion2Container(baseName: string, hash: seq<byte>, cs: seq<RawChunk>, path: string, codecs: Codecs)
    requires |hash| < Pow256(4)
    requires forall i | 0 <= i < |cs| :: WellFormed(cs[i])
    ensures var r := ProcessSc(baseName, EncodeHeader(2, hash, EncodeChunks(cs)), path, true, codecs);
      && r.outcome == Completed
      && |r.saved| == |cs|
      && forall n | 0 <= n < |cs| :: r.saved[n] == Saved(OutputName(path + baseName, n), ChunkImage(cs[n]))
  {
    PrepareVersion2(hash, EncodeChunks(cs), codecs);
    ProcessEncodedChunks(cs, path + baseName, 0);
  }

  /** A Zstandard-compressed version-1 container whose frame decompresses to a stream of
      encoded chunks yields exactly their images. */
  lemma ProcessZstdContainer(baseName: string, hash: seq<byte>, frame: seq<byte>, cs: seq<RawChunk>,
                             path: string, codecs: Codecs)
    requires |hash| < Pow256(4)
    requires forall i | 0 <= i < |cs| :: WellFormed(cs[i])
    requires codecs.zstd(ZstdMagic + frame) == Some(EncodeChunks(cs))
    ensures var r := ProcessSc(baseName, EncodeHeader(1, hash, ZstdMagic + frame), path, true, codecs);
      && r.outcome == Completed
      && |r.saved| == |cs|
      && forall n | 0 <= n < |cs| :: r.saved[n] == Saved(OutputName(path + baseName, n), ChunkImage(cs[n]))
  {
    PrepareZstd(hash, frame, codecs);
    ProcessEncodedChunks(cs, path + baseName, 0);
  }
}

=== FILE: ktx.dfy ===
/** `load_ktx` (ktx.py:8-43): checks a KTX 1.1 header (section 2 of the Khronos KTX File
    Format Specification 1.1), picks the byte order from its endianness field, reads the
    fields it needs, accepts only ASTC 4x4, skips the key/value data and finds the ASTC
    block data, possibly behind Apple's LZFSE wrapper. ASTC decoding and image creation are
    not modelled; the result is what would be handed to the decoder. */
module Ktx {
  import opened Bytes
  import opened Results

  /** The first 7 bytes of the 12-byte KTX 1.1 identifier, "«KTX 11": all that is compared. */
  const IdentifierPrefix: seq<byte> := [0xAB, 0x4B, 0x54, 0x58, 0x20, 0x31, 0x31]

  /** The other 5 bytes of the identifier, "»\r\n\x1A\n". */
  const IdentifierRest: seq<byte> := [0xBB, 0x0D, 0x0A, 0x1A, 0x0A]

  /** The endianness field, 0x04030201, as a little-endian file stores it. */
  const LittleEndianMark: seq<byte> := [0x01, 0x02, 0x03, 0x04]

  /** The size of the fixed header. */
  const HeaderSize: nat := 64

  /** glInternalFormat GL_COMPRESSED_RGBA_ASTC_4x4_KHR, the only format accepted. */
  const Astc4x4: nat := 0x93B0

  /** "Compression_APPLE": the key/value marker of Apple's compressed KTX files. */
  const AppleCompressionKey: seq<byte> :=
    [0x43, 0x6F, 0x6D, 0x70, 0x72, 0x65, 0x73, 0x73, 0x69, 0x6F, 0x6E, 0x5F, 0x41, 0x50, 0x50, 0x4C, 0x45]

  /** "bvx": the start of an LZFSE block magic. */
  const LzfseTag: seq<byte> := [0x62, 0x76, 0x78]

  datatype ByteOrder = Little | Big

  datatype KtxError =
    | UnsupportedVersion(identifier: seq<byte>)  // TypeError: bad identifier
    | TruncatedHeader                            // struct.error: header shorter than 64 bytes
    | UnsupportedFormat(format: nat)             // TypeError: not ASTC 4x4
    | UnsupportedCompression(tag: seq<byte>)     // ValueError: Apple key without "bvx"
    | LzfseFailed                                // the LZFSE decompressor raised

  /** Where the ASTC blocks are: directly after the 4-byte imageSize field, or inside an
      LZFSE stream that still has to be decompressed. */
  datatype ImageData = Blocks(blocks: seq<byte>) | Lzfse(compressed: seq<byte>)

  datatype KtxTexture = KtxTexture(order: ByteOrder, width: nat, height: nat, keyValueData: seq<byte>, image: ImageData)

  /** Little-endian exactly when header bytes 12..16 are 01 02 03 04. */
  function ByteOrderOf(header: seq<byte>): (o: ByteOrder)
    ensures o == Little <==> Slice(header, 12, 16) == LittleEndianMark
  {
    if Slice(header, 12, 16) == LittleEndianMark then Little else Big
  }

  /** A 32-bit unsigned field in the given byte order. */
  function ReadU32(s: seq<byte>, order: ByteOrder): (v: nat)
    requires |s| == 4
    ensures v < Pow256(4)
  {
    if order == Little then LittleEndian(s) else BigEndian(s)
  }

  /** The 4 bytes `ReadU32` reads v from. */
  function U32Bytes(v: nat, order: ByteOrder): (r: seq<byte>)
    requires v < Pow256(4)
    ensures |r| == 4 && ReadU32(r, order) == v
  {
    if order == Little then
      LittleEndianRoundTrip(v, 4);
      LittleEndianBytes(v, 4)
    else
      BigEndianRoundTrip(v, 4);
      BigEndianBytes(v, 4)
  }

  /** The header's fields read in the file's byte order: glInternalFormat at 28..32,
      pixelWidth at 36..40, pixelHeight at 40..44, bytesOfKeyValueData at 60..64. */
  function Format(data: seq<byte>): nat
    requires |data| >= HeaderSize
  {
    ReadU32(data[28..32], ByteOrderOf(data))
  }

  function Width(data: seq<byte>): nat
    requires |data| >= HeaderSize
  {
    ReadU32(data[36..40], ByteOrderOf(data))
  }

  function Height(data: seq<byte>): nat
    requires |data| >= HeaderSize
  {
    ReadU32(data[40..44], ByteOrderOf(data))
  }

  function KeyValueLength(data: seq<byte>): nat
    requires |data| >= HeaderSize
  {
    ReadU32(data[60..64], ByteOrderOf(data))
  }

  /** `load_ktx` up to the ASTC decoder. The identifier is checked first, so a bad
      identifier is reported as such whatever else is wrong; a header shorter than 64
      bytes then fails on the field reads, before the format is looked at. */
  function ParseKtx(data: seq<byte>): (r: Result<KtxTexture, KtxError>)
    ensures !StartsWith(data, IdentifierPrefix) <==> r == Err(UnsupportedVersion(Slice(data, 0, 7)))
    ensures StartsWith(data, IdentifierPrefix) && |data| < HeaderSize ==> r == Err(TruncatedHeader)
    ensures StartsWith(data, IdentifierPrefix) && |data| >= HeaderSize && Format(data) != Astc4x4 ==>
      r == Err(UnsupportedFormat(Format(data)))
    ensures r.Ok? ==>
      && |data| >= HeaderSize && Format(data) == Astc4x4
      && r.value.order == ByteOrderOf(data)
      && r.value.width == Width(data) && r.value.height == Height(data)
    // the key/value block: the first bytesOfKeyValueData bytes after the header
    ensures r.Ok? ==>
      var kv := r.value.keyValueData;
      && |kv| <= KeyValueLength(data) && HeaderSize + |kv| <= |data|
      && (|kv| < KeyValueLength(data) ==> |data| == HeaderSize + |kv|)
      && data[HeaderSize..HeaderSize + |kv|] == kv
    ensures r.Ok? ==> (r.value.image.Lzfse? <==> Contains(r.value.keyValueData, AppleCompressionKey))
    // with the Apple key: the remainder from its offset 12 on, which begins with "bvx"
    ensures r.Ok? && r.value.image.Lzfse? ==>
      var rest := HeaderSize + |r.value.keyValueData|;
      |data| >= rest + 15 && r.value.image.compressed == data[rest + 12..]
        && StartsWith(r.value.image.compressed, LzfseTag)
    // without it: the remainder with its 4-byte imageSize field dropped
    ensures r.Ok? && r.value.image.Blocks? ==>
      var rest := HeaderSize + |r.value.keyValueData|;
      r.value.image.blocks == Drop(data, rest + 4)
    // a complete ASTC 4x4 header fails only on an Apple key without "bvx", reporting the
    // three bytes found instead
    ensures StartsWith(data, IdentifierPrefix) && |data| >= HeaderSize && Format(data) == Astc4x4 ==>
      var kv := Slice(data[HeaderSize..], 0, KeyValueLength(data));
      var rest := Drop(data[HeaderSize..], KeyValueLength(data));
      && (r.Err? <==> Contains(kv, AppleCompressionKey) && Slice(rest, 12, 15) != LzfseTag)
      && (r.Err? ==> r == Err(UnsupportedCompression(Slice(rest, 12, 15))))
  {
    // `header` is data[:64], so its bytes 0..7 and 12..16 are those of data, and a
    // complete header has every field at the same offset in data.
    assert StartsWith(data, IdentifierPrefix) <==> Slice(data, 0, 7) == IdentifierPrefix;
    if Slice(data, 0, 7) != IdentifierPrefix then
      Err(UnsupportedVersion(Slice(data, 0, 7)))
    else if |data| < HeaderSize then
      Err(TruncatedHeader)
    else
      var body := data[HeaderSize..];
      var kvLength := KeyValueLength(data);
      CheckBody(ByteOrderOf(data), Format(data), Width(data), Height(data), Slice(body, 0, kvLength), Drop(body, kvLength))
  }

  /** The second half of `load_ktx`, once the header fields are read: the format check,
      then the search of the key/value data for the Apple key. */
  function CheckBody(order: ByteOrder, format: nat, width: nat, height: nat, kv: seq<byte>, rest: seq<byte>)
    : (r: Result<KtxTexture, KtxError>)
    ensures format != Astc4x4 ==> r == Err(UnsupportedFormat(format))
    ensures r.Ok? ==> format == Astc4x4 && r.value == KtxTexture(order, width, height, kv, r.value.image)
    ensures r.Ok? ==> (r.value.image.Lzfse? <==> Contains(kv, AppleCompressionKey))
    ensures r.Ok? && r.value.image.Lzfse? ==>
      |rest| >= 15 && r.value.image.compressed == rest[12..] && StartsWith(r.value.image.compressed, LzfseTag)
    ensures r.Ok? && r.value.image.Blocks? ==> r.value.image.blocks == Drop(rest, 4)
    ensures format == Astc4x4 ==>
      && (r.Err? <==> Contains(kv, AppleCompressionKey) && Slice(rest, 12, 15) != LzfseTag)
      && (r.Err? ==> r == Err(UnsupportedCompression(Slice(rest, 12, 15))))
  {
    if format != Astc4x4 then
      Err(UnsupportedFormat(format))
    else if Contains(kv, AppleCompressionKey) then
      if Slice(rest, 12, 15) == LzfseTag then
        Ok(KtxTexture(order, width, height, kv, Lzfse(Drop(rest, 12))))
      else
        Err(UnsupportedCompression(Slice(rest, 12, 15)))
    else
      Ok(KtxTexture(order, width, height, kv, Blocks(Drop(rest, 4))))
  }

  /** What `Image.frombytes(..., 'astc', (4, 4, False))` would be handed. */
  datatype AstcInput = AstcInput(width: nat, height: nat, blocks: seq<byte>)

  /** `load_ktx` with the LZFSE decompressor as a parameter that may fail. */
  function LoadKtx(data: seq<byte>, lzfse: seq<byte> -> Option<seq<byte>>): (r: Result<AstcInput, KtxError>)
    ensures ParseKtx(data).Err? ==> r == Err(ParseKtx(data).error)
    ensures r.Ok? ==> ParseKtx(data).Ok? && r.value.width == Width(data) && r.value.height == Height(data)
    ensures r == Err(LzfseFailed) <==>
      ParseKtx(data).Ok? && ParseKtx(data).value.image.Lzfse? && lzfse(ParseKtx(data).value.image.compressed).None?
    ensures ParseKtx(data).Ok? && r != Err(LzfseFailed) ==> r.Ok?
    // the bytes handed to the ASTC decoder: the blocks found, or what LZFSE made of them
    ensures r.Ok? && ParseKtx(data).value.image.Blocks? ==> r.value.blocks == ParseKtx(data).value.image.blocks
    ensures r.Ok? && ParseKtx(data).value.image.Lzfse? ==>
      lzfse(ParseKtx(data).value.image.compressed) == Some(r.value.blocks)
  {
    var texture :- ParseKtx(data);
    match texture.image
    case Blocks(blocks) => Ok(AstcInput(texture.width, texture.height, blocks))
    case Lzfse(compressed) =>
      match lzfse(compressed)
      case None => Err(LzfseFailed)
      case Some(blocks) => Ok(AstcInput(texture.width, texture.height, blocks))
  }

  /** Any complete ASTC 4x4 file without the Apple key loads to its header's dimensions
      and the bytes after the key/value data and the 4-byte imageSize field, whatever the
      fields the loader ignores hold. */
  lemma LoadPlainKtx(data: seq<byte>, lzfse: seq<byte> -> Option<seq<byte>>)
    requires StartsWith(data, IdentifierPrefix) && |data| >= HeaderSize && Format(data) == Astc4x4
    requires !Contains(Slice(data[HeaderSize..], 0, KeyValueLength(data)), AppleCompressionKey)
    ensures var rest := Drop(data[HeaderSize..], KeyValueLength(data));
      LoadKtx(data, lzfse) == Ok(AstcInput(Width(data), Height(data), Drop(rest, 4)))
  {
  }

  /** Any complete ASTC 4x4 file with the Apple key and the "bvx" tag at remainder offset
      12 hands the remainder from there to LZFSE, and its output to the decoder. */
  lemma LoadCompressedKtx(data: seq<byte>, lzfse: seq<byte> -> Option<seq<byte>>)
    requires StartsWith(data, IdentifierPrefix) && |data| >= HeaderSize && Format(data) == Astc4x4
    requires Contains(Slice(data[HeaderSize..], 0, KeyValueLength(data)), AppleCompressionKey)
    requires Slice(Drop(data[HeaderSize..], KeyValueLength(data)), 12, 15) == LzfseTag
    ensures var rest := Drop(data[HeaderSize..], KeyValueLength(data));
      LoadKtx(data, lzfse) == match lzfse(Drop(rest, 12))
                              case None => Err(LzfseFailed)
                              case Some(blocks) => Ok(AstcInput(Width(data), Height(data), blocks))
  {
  }

  /** A KTX 1.1 header in the given byte order: identifier, endianness, glType,
      glTypeSize, glFormat, glInternalFormat, glBaseInternalFormat, pixelWidth,
      pixelHeight, pixelDepth, numberOfArrayElements, numberOfFaces,
      numberOfMipmapLevels, bytesOfKeyValueData. Fields the loader ignores are zero. */
  function EncodeKtxHeader(order: ByteOrder, format: nat, width: nat, height: nat, kvLength: nat): (r: seq<byte>)
    requires format < Pow256(4) && width < Pow256(4) && height < Pow256(4) && kvLength < Pow256(4)
    ensures |r| == HeaderSize
    ensures r[..7] == IdentifierPrefix
    ensures ByteOrderOf(r) == order
    ensures r[28..32] == U32Bytes(format, order)
    ensures r[36..40] == U32Bytes(width, order) && r[40..44] == U32Bytes(height, order)
    ensures r[60..64] == U32Bytes(kvLength, order)
  {
    var zeros: seq<byte> := seq(12, _ => 0);
    var mark := if order == Little then LittleEndianMark else [4, 3, 2, 1];
    // bytes 0..28: identifier, endianness, glType, glTypeSize, glFormat
    var front := IdentifierPrefix + IdentifierRest + mark + zeros;
    // bytes 28..44: glInternalFormat, glBaseInternalFormat, pixelWidth, pixelHeight
    var sizes := U32Bytes(format, order) + zeros[..4] + U32Bytes(width, order) + U32Bytes(height, order);
    // bytes 44..64: pixelDepth, numberOfArrayElements, numberOfFaces, numberOfMipmapLevels,
    // bytesOfKeyValueData
    var back := zeros + zeros[..4] + U32Bytes(kvLength, order);
    assert front[..7] == IdentifierPrefix && front[12..16] == mark;
    assert sizes[..4] == U32Bytes(format, order);
    assert sizes[8..12] == U32Bytes(width, order) && sizes[12..16] == U32Bytes(height, order);
    assert back[16..] == U32Bytes(kvLength, order);
    HeaderParts(front, sizes, back);
    var r := front + sizes + back;
    assert Slice(r, 12, 16) == mark;
    r
  }

  /** Where the fields of `EncodeKtxHeader`'s three parts land in the header. */
  lemma HeaderParts(front: seq<byte>, sizes: seq<byte>, back: seq<byte>)
    requires |front| == 28 && |sizes| == 16 && |back| == 20
    ensures var r := front + sizes + back;
      && r[..7] == front[..7] && r[12..16] == front[12..16]
      && r[28..32] == sizes[..4] && r[36..40] == sizes[8..12] && r[40..44] == sizes[12..16]
      && r[60..64] == back[16..]
  {
  }

  /** Reading back an encoded header recovers every field it was built from, and the
      key/value data and remainder that follow it. */
  lemma ParseEncodedHeader(order: ByteOrder, format: nat, width: nat, height: nat, kv: seq<byte>, rest: seq<byte>)
    requires format < Pow256(4) && width < Pow256(4) && height < Pow256(4) && |kv| < Pow256(4)
    ensures ParseKtx(EncodeKtxHeader(order, format, width, height, |kv|) + kv + rest)
      == CheckBody(order, format, width, height, kv, rest)
  {
    var header := EncodeKtxHeader(order, format, width, height, |kv|);
    var data := header + kv + rest;
    assert data[..HeaderSize] == header;
    assert Slice(data, 0, 7) == IdentifierPrefix;
    assert Slice(data, 12, 16) == Slice(header, 12, 16);
    assert ByteOrderOf(data) == order;
    assert data[28..32] == U32Bytes(format, order);
    assert data[36..40] == U32Bytes(width, order);
    assert data[40..44] == U32Bytes(height, order);
    assert data[60..64] == U32Bytes(|kv|, order);
    assert Format(data) == format && Width(data) == width && Height(data) == height;
    assert KeyValueLength(data) == |kv|;
    var body := data[HeaderSize..];
    assert body == kv + rest;
    assert Slice(body, 0, |kv|) == kv;
    assert Drop(body, |kv|) == rest;
  }

  /** A file built from a header, key/value data without the Apple key, a 4-byte
      imageSize field and ASTC blocks parses back to its fields and blocks when the
      format is ASTC 4x4, and fails with that format otherwise. */
  lemma ParseEncodedKtx(order: ByteOrder, format: nat, width: nat, height: nat,
                        kv: seq<byte>, imageSize: seq<byte>, blocks: seq<byte>)
    requires format < Pow256(4) && width < Pow256(4) && height < Pow256(4) && |kv| < Pow256(4)
    requires |imageSize| == 4
    requires !Contains(kv, AppleCompressionKey)
    ensures var data := EncodeKtxHeader(order, format, width, height, |kv|) + kv + imageSize + blocks;
      ParseKtx(data) == if format == Astc4x4 then Ok(KtxTexture(order, width, height, kv, Blocks(blocks)))
                        else Err(UnsupportedFormat(format))
  {
    var header := EncodeKtxHeader(order, format, width, height, |kv|);
    var rest := imageSize + blocks;
    ParseEncodedHeader(order, format, width, height, kv, rest);
    assert header + kv + rest == header + kv + imageSize + blocks;
    assert Drop(rest, 4) == blocks;
    if format == Astc4x4 {
      assert CheckBody(order, format, width, height, kv, rest) == Ok(KtxTexture(order, width, height, kv, Blocks(blocks)));
    }
  }

  /** A file whose key/value data carries the Apple key is handed on from remainder
      offset 12 exactly when the "bvx" tag is there. */
  lemma ParseAppleKtx(order: ByteOrder, width: nat, height: nat, kv: seq<byte>, rest: seq<byte>)
    requires width < Pow256(4) && height < Pow256(4) && |kv| < Pow256(4)
    requires Contains(kv, AppleCompressionKey)
    ensures var data := EncodeKtxHeader(order, Astc4x4, width, height, |kv|) + kv + rest;
      ParseKtx(data) == if Slice(rest, 12, 15) == LzfseTag then Ok(KtxTexture(order, width, height, kv, Lzfse(Drop(rest, 12))))
                        else Err(UnsupportedCompression(Slice(rest, 12, 15)))
  {
    ParseEncodedHeader(order, Astc4x4, width, height, kv, rest);
  }

  /** Loading an Apple-compressed file hands exactly the bytes from remainder offset 12
      on, "bvx" tag included, to the LZFSE decompressor, and its output to the decoder. */
  lemma LoadAppleKtx(order: ByteOrder, width: nat, height: nat, kv: seq<byte>, rest: seq<byte>,
                     lzfse: seq<byte> -> Option<seq<byte>>)
    requires width < Pow256(4) && height < Pow256(4) && |kv| < Pow256(4)
    requires Contains(kv, AppleCompressionKey) && Slice(rest, 12, 15) == LzfseTag
    ensures var data := EncodeKtxHeader(order, Astc4x4, width, height, |kv|) + kv + rest;
      LoadKtx(data, lzfse) == match lzfse(rest[12..])
                              case None => Err(LzfseFailed)
                              case Some(blocks) => Ok(AstcInput(width, height, blocks))
  {
    ParseAppleKtx(order, width, height, kv, rest);
  }
}

=== FILE: pixels.dfy ===
/** Pixel decoding: one encoded pixel plus the chunk's sub-type code becomes a tuple of
    channel integers, by the fixed shifts and masks of `convert_pixel` (dumpsc.py). */
module Pixels {
  import opened Arith
  import opened Bytes
  import opened Results

  /** The tuple `convert_pixel` returns: three channels for RGB565 and L8, four otherwise.
      Channels are Python integers; RGBA5551's alpha can exceed 255. */
  datatype Pixel = Rgb(r: nat, g: nat, b: nat) | Rgba(r: nat, g: nat, b: nat, a: nat)

  datatype PixelError =
    | UnknownPixelType(subType: int)  // the `raise Exception("Unknown pixel type")`
    | BadPixelLength                  // `struct.unpack` given a slice of the wrong size

  /** The sub-types both `convert_pixel` and the chunk loop's size table know. */
  predicate KnownSubType(t: int) {
    t == 0 || t == 1 || t == 2 || t == 3 || t == 4 || t == 6 || t == 10
  }

  /** Bytes per encoded pixel, by the chunk loop's table: 4 for RGBA8888 (0 and 1),
      2 for RGBA4444, RGBA5551, RGB565 and LA88 (2, 3, 4, 6), 1 for L8 (10). */
  function PixelSize(t: int): (r: Result<nat, PixelError>)
    ensures r.Ok? <==> KnownSubType(t)
    ensures r.Ok? ==> r.value == 1 || r.value == 2 || r.value == 4
    ensures r.Err? ==> r.error == UnknownPixelType(t)
  {
    if t == 0 || t == 1 then Ok(4)
    else if t == 2 || t == 3 || t == 4 || t == 6 then Ok(2)
    else if t == 10 then Ok(1)
    else Err(UnknownPixelType(t))
  }

  /** `struct.unpack('<H')` on two bytes. */
  function U16(px: seq<byte>): (v: nat)
    requires |px| == 2
    ensures v < 0x10000
    ensures v % 256 == px[0] && v / 256 == px[1]
  {
    px[0] as int + 256 * px[1] as int
  }

  /** `convert_pixel(pixel, type)`. An unknown type is rejected before the bytes are
      looked at; a known type given the wrong number of bytes makes `struct.unpack` fail. */
  function ConvertPixel(px: seq<byte>, t: int): (r: Result<Pixel, PixelError>)
    ensures r.Ok? <==> PixelSize(t) == Ok(|px|)
    ensures !KnownSubType(t) ==> r == Err(UnknownPixelType(t))
    // RGBA8888: the four bytes, in order
    ensures r.Ok? && (t == 0 || t == 1) ==> r.value == Rgba(px[0], px[1], px[2], px[3])
    // RGBA4444: four channels, each a multiple of 16 and at most 240
    ensures r.Ok? && t == 2 ==>
      r.value.Rgba? && Nibble4(r.value.r) && Nibble4(r.value.g) && Nibble4(r.value.b) && Nibble4(r.value.a)
    // RGBA5551: three 5-bit channels as multiples of 8 up to 248; alpha is the low byte times 128
    ensures r.Ok? && t == 3 ==>
      r.value.Rgba? && Bits5(r.value.r) && Bits5(r.value.g) && Bits5(r.value.b) && r.value.a == px[0] as int * 128
    // RGB565: a 3-tuple, R and B multiples of 8 up to 248, G a multiple of 4 up to 252
    ensures r.Ok? && t == 4 ==>
      r.value.Rgb? && Bits5(r.value.r) && r.value.g % 4 == 0 && r.value.g <= 252 && Bits5(r.value.b)
    // LA88: the second byte replicated into R, G and B; the first byte is alpha
    ensures r.Ok? && t == 6 ==> r.value == Rgba(px[1], px[1], px[1], px[0])
    // L8: the one byte replicated into a 3-tuple
    ensures r.Ok? && t == 10 ==> r.value == Rgb(px[0], px[0], px[0])
  {
    if t == 0 || t == 1 then
      if |px| != 4 then Err(BadPixelLength) else Ok(Rgba(px[0], px[1], px[2], px[3]))
    else if t == 2 then
      if |px| != 2 then Err(BadPixelLength) else Ok(Rgba4444(U16(px)))
    else if t == 3 then
      if |px| != 2 then Err(BadPixelLength) else Ok(Rgba5551(U16(px)))
    else if t == 4 then
      if |px| != 2 then Err(BadPixelLength) else Ok(Rgb565(U16(px)))
    else if t == 6 then
      if |px| != 2 then Err(BadPixelLength) else Ok(La88(U16(px)))
    else if t == 10 then
      if |px| != 1 then Err(BadPixelLength) else Ok(Rgb(px[0], px[0], px[0]))
    else
      Err(UnknownPixelType(t))
  }

  /** RGBA4444 from its 16-bit value p: R, G, B and A are the 4-bit fields at bits 12-15,
      8-11, 4-7 and 0-3, each times 16. */
  function Rgba4444(p: nat): (c: Pixel)
    requires p < 0x10000
    ensures c.Rgba? && Nibble4(c.r) && Nibble4(c.g) && Nibble4(c.b) && Nibble4(c.a)
  {
    Rgba((p / 0x1000) % 0x10 * 0x10, (p / 0x100) % 0x10 * 0x10, (p / 0x10) % 0x10 * 0x10, p % 0x10 * 0x10)
  }

  /** RGBA5551 from its 16-bit value p: R, G and B are the 5-bit fields at bits 11-15,
      6-10 and 1-5, each times 8; alpha is the whole low byte times 128, not bit 0. */
  function Rgba5551(p: nat): (c: Pixel)
    requires p < 0x10000
    ensures c.Rgba? && Bits5(c.r) && Bits5(c.g) && Bits5(c.b) && c.a == p % 256 * 128
  {
    Rgba((p / 0x800) % 0x20 * 8, (p / 0x40) % 0x20 * 8, (p / 2) % 0x20 * 8, p % 0x100 * 0x80)
  }

  /** RGB565 from its 16-bit value p, with no alpha: R is bits 11-15 times 8, G bits 5-10
      times 4, B bits 0-4 times 8. */
  function Rgb565(p: nat): (c: Pixel)
    requires p < 0x10000
    ensures c.Rgb? && Bits5(c.r) && c.g % 4 == 0 && c.g <= 252 && Bits5(c.b)
  {
    Rgb((p / 0x800) % 0x20 * 8, (p / 0x20) % 0x40 * 4, p % 0x20 * 8)
  }

  /** LA88 from its 16-bit value p: the high byte is the luminance, repeated as R, G and B,
      and the low byte is alpha. */
  function La88(p: nat): (c: Pixel)
    requires p < 0x10000
    ensures c.Rgba? && c.r == c.g == c.b < 256 && c.a < 256
    ensures c.r * 256 + c.a == p
  {
    Rgba(p / 0x100, p / 0x100, p / 0x100, p % 0x100)
  }

  /** A 4-bit field shifted left by 4. */
  predicate Nibble4(c: nat) {
    c % 16 == 0 && c <= 240
  }

  /** A 5-bit field shifted left by 3. */
  predicate Bits5(c: nat) {
    c % 8 == 0 && c <= 248
  }

  /** The two little-endian bytes of a 16-bit value. */
  function U16Bytes(v: nat): (r: seq<byte>)
    requires v < 0x10000
    ensures |r| == 2 && U16(r) == v
  {
    [v % 256, v / 256]
  }

  /** The encoding `convert_pixel` reads a pixel from: packs the channels back into bytes.
      Used as the inverse that shows decoding loses no information. */
  function EncodePixel(p: Pixel, t: int): seq<byte> {
    if t == 0 || t == 1 then
      [p.r % 256, p.g % 256, p.b % 256, (if p.Rgba? then p.a else 0) % 256]
    else if t == 2 then
      var a := if p.Rgba? then p.a else 0;
      U16Bytes((p.r / 16 % 16) * 0x1000 + (p.g / 16 % 16) * 0x100 + (p.b / 16 % 16) * 0x10 + a / 16 % 16)
    else if t == 3 then
      var a := if p.Rgba? then p.a else 0;
      U16Bytes((p.r / 8 % 32) * 0x800 + (p.g / 8 % 32) * 0x40 + (p.b / 8 % 32) * 2 + a / 128 % 2)
    else if t == 4 then
      U16Bytes((p.r / 8 % 32) * 0x800 + (p.g / 4 % 64) * 0x20 + p.b / 8 % 32)
    else if t == 6 then
      [(if p.Rgba? then p.a else 0) % 256, p.r % 256]
    else if t == 10 then
      [p.r % 256]
    else
      []
  }

  /** Decoding loses no information: every decoded pixel re-encodes to the bytes it came
      from, so distinct encodings of one sub-type never decode to the same tuple. */
  lemma ConvertPixelRoundTrip(px: seq<byte>, t: int)
    requires ConvertPixel(px, t).Ok?
    ensures EncodePixel(ConvertPixel(px, t).value, t) == px
  {
    if t == 2 {
      Rgba4444RoundTrip(px);
    } else if t == 3 {
      Rgba5551RoundTrip(px);
    } else if t == 4 {
      Rgb565RoundTrip(px);
    } else if t == 6 {
      assert px == U16Bytes(U16(px));
    }
  }

  lemma Rgba4444RoundTrip(px: seq<byte>)
    requires |px| == 2
    ensures EncodePixel(ConvertPixel(px, 2).value, 2) == px
  {
    var v := U16(px);
    Rgba4444Inverse(v);
    assert px == U16Bytes(v);
  }

  lemma Rgba5551RoundTrip(px: seq<byte>)
    requires |px| == 2
    ensures EncodePixel(ConvertPixel(px, 3).value, 3) == px
  {
    var v := U16(px);
    Rgba5551Inverse(v);
    assert px == U16Bytes(v);
  }

  lemma Rgb565RoundTrip(px: seq<byte>)
    requires |px| == 2
    ensures EncodePixel(ConvertPixel(px, 4).value, 4) == px
  {
    var v := U16(px);
    Rgb565Inverse(v);
    assert px == U16Bytes(v);
  }

  lemma Rgba4444Inverse(v: nat)
    requires v < 0x10000
    ensures EncodePixel(Rgba4444(v), 2) == U16Bytes(v)
  {
    var f0, f1, f2, f3 := v / 0x1000 % 16, v / 0x100 % 16, v / 0x10 % 16, v % 16;
    assert Rgba4444(v) == Rgba(f0 * 16, f1 * 16, f2 * 16, f3 * 16);
    Field(f0, 16, 16);
    Field(f1, 16, 16);
    Field(f2, 16, 16);
    Field(f3, 16, 16);
    Recompose4444(v);
  }

  lemma Rgba5551Inverse(v: nat)
    requires v < 0x10000
    ensures EncodePixel(Rgba5551(v), 3) == U16Bytes(v)
  {
    var f0, f1, f2, lo := v / 0x800 % 32, v / 0x40 % 32, v / 2 % 32, v % 0x100;
    assert Rgba5551(v) == Rgba(f0 * 8, f1 * 8, f2 * 8, lo * 128);
    Field(f0, 8, 32);
    Field(f1, 8, 32);
    Field(f2, 8, 32);
    LowBit(v);
    assert lo * 128 / 128 % 2 == v % 2 by {
      DivModOf(lo, 128, 0);
    }
    Recompose5551(v);
  }

  lemma Rgb565Inverse(v: nat)
    requires v < 0x10000
    ensures EncodePixel(Rgb565(v), 4) == U16Bytes(v)
  {
    var f0, f1, f2 := v / 0x800 % 32, v / 0x20 % 64, v % 32;
    assert Rgb565(v) == Rgb(f0 * 8, f1 * 4, f2 * 8);
    Field(f0, 8, 32);
    Field(f1, 4, 64);
    Field(f2, 8, 32);
    Recompose565(v);
  }

  /** A field shifted left and then right again, and masked to its width, is unchanged. */
  lemma Field(f: nat, k: nat, m: nat)
    requires f < m && k > 0
    ensures f * k / k % m == f
  {
    DivModOf(f, k, 0);
    DivModOf(0, m, f);
  }

  /** The low byte of v has the low bit of v. */
  lemma LowBit(v: nat)
    ensures v % 0x100 % 2 == v % 2
  {
    var lo := v % 0x100;
    assert v == (128 * (v / 0x100) + lo / 2) * 2 + lo % 2;
    DivModOf(128 * (v / 0x100) + lo / 2, 2, lo % 2);
  }

  /** The four nibbles of a 16-bit value put back together. */
  lemma Recompose4444(v: nat)
    requires v < 0x10000
    ensures (v / 0x1000) % 16 * 0x1000 + (v / 0x100) % 16 * 0x100 + (v / 0x10) % 16 * 0x10 + v % 16 == v
  {
    DivDiv(v, 16, 16);
    DivDiv(v, 256, 16);
    var a, b, c := v / 16, v / 256, v / 4096;
    assert v == 16 * a + v % 16;
    assert a == 16 * b + a % 16;
    assert b == 16 * c + b % 16;
    DivModOf(0, 16, c);
  }

  /** The 5/5/5/1 fields of a 16-bit value put back together. */
  lemma Recompose5551(v: nat)
    requires v < 0x10000
    ensures (v / 0x800) % 0x20 * 0x800 + (v / 0x40) % 0x20 * 0x40 + (v / 2) % 0x20 * 2 + v % 2 == v
  {
    DivDiv(v, 2, 32);
    DivDiv(v, 64, 32);
    var a, b, c := v / 2, v / 64, v / 2048;
    assert v == 2 * a + v % 2;
    assert a == 32 * b + a % 32;
    assert b == 32 * c + b % 32;
    DivModOf(0, 32, c);
  }

  /** The 5/6/5 fields of a 16-bit value put back together. */
  lemma Recompose565(v: nat)
    requires v < 0x10000
    ensures (v / 0x800) % 0x20 * 0x800 + (v / 0x20) % 0x40 * 0x20 + v % 0x20 == v
  {
    DivDiv(v, 32, 64);
    var a, b := v / 32, v / 2048;
    assert v == 32 * a + v % 32;
    assert a == 64 * b + a % 64;
    DivModOf(0, 32, b);
  }

  /** Decoding is injective per sub-type. */
  lemma ConvertPixelInjective(px: seq<byte>, qx: seq<byte>, t: int)
    requires ConvertPixel(px, t).Ok? && ConvertPixel(qx, t).Ok?
    requires ConvertPixel(px, t) == ConvertPixel(qx, t)
    ensures px == qx
  {
    ConvertPixelRoundTrip(px, t);
    ConvertPixelRoundTrip(qx, t);
  }

  /** RGBA5551's alpha is not an 8-bit channel: the two bytes 02 00 decode to alpha 256,
      and FF FF to alpha 32640. */
  lemma Rgba5551AlphaExceedsByte()
    ensures ConvertPixel([0x02, 0x00], 3) == Ok(Rgba(0, 0, 8, 256))
    ensures ConvertPixel([0xFF, 0xFF], 3).value.a == 32640
  {
  }
}

=== FILE: results.dfy ===
/** Failure-compatible wrappers used by every stage of the extractor. */
module Results {

  /** A value that may be absent: what an external decompressor returns. */
  datatype Option<+T> = None | Some(value: T)

  /** Either a value or the error that Python would have raised instead. */
  datatype Result<+T, +E> = Ok(value: T) | Err(error: E) {

    predicate IsFailure() {
      Err?
    }

    function PropagateFailure<U>(): Result<U, E>
      requires Err?
    {
      Err(error)
    }

    function Extract(): T
      requires Ok?
    {
      value
    }
  }
}
